=== FILE: README.md ===
# Contact book: a Dafny model

This project models the record logic of a console contact book in two generations.

`main.py` is the later assistant bot:
- the validated fields `Phone`, `Email`, `Address` and `Birthday`;
- a `Record` holding a name, a list of phones and optional birthday, e-mail and address;
- an `AddressBook`, a dictionary from name to record, with the upcoming-birthday query;
- `Note` and `Notebook`, a dictionary of notes keyed by their creation time;
- the command handlers that change the stores, wrapped in `input_error`.

`HW1807.py` is the earlier version: a `Contact` whose phone and e-mail are checked against regular expressions, and an `AddressBook` that refuses duplicate names.

## How the model is built

Python mutates objects in place. Here every operation is a pure function that returns the new value. When the Python code mutates and then raises, the function returns an `Exceptions.Effect`: the state after the call together with the result or the exception.

A Python `dict` is `OrderedMap.Dict`: a map plus the order in which keys were first inserted. Assigning to a present key keeps its place, and all queries follow this order.

Dates (`Dates`) are `(year, month, day)` triples with:
- Python's validity rules on years 1..9999;
- `toordinal`, with 0001-01-01 as day 1, and `weekday = (ordinal + 6) % 7`;
- `replace(year=...)` with its two error messages;
- `+ timedelta(days=n)` with its OverflowError.

`DateText` models `strptime(s, "%d.%m.%Y")` through the regular expressions CPython builds for `%d`, `%m` and `%Y`. It also gives the `strftime` renderings the program uses.

The clock is a parameter. `get_upcoming_birthdays` takes `today`, and a note or `add_note` takes the instant `datetime.now()` would return.

The code of `edit_phone` (main.py:69-70) removes the old phone before it constructs the new `Phone`. The model follows the code. An invalid new number raises with the old phone already removed, and a valid one is appended at the end.

A note's tags stay duplicate-free under `add_tag` and `remove_tag` (`Notes.AddTag`, `Notes.RemoveTag`). The `Note` constructor stores the tag list it is given, so `add_note` with a repeated tag word creates a note with a duplicate tag (`Notes.RemoveTagLeavesDuplicate`).

## Model

| member | source | states |
|---|---|---|
| Text.Strip | main.py:45-47 | `str.strip()`: the result is a slice of the input with only whitespace cut from either end; it is empty exactly when the input is all whitespace, and otherwise starts and ends with a non-space character |
| Seqs.IndexOf | main.py:74-78 | the search of `find_phone`: the position of the first element equal to the value, and None exactly when the value is absent |
| Seqs.RemoveFirst | main.py:64 | `list.remove` after a membership test: removes the first equal element only, keeps the order of the rest, takes exactly one copy out of the multiset, and is a no-op when the value is absent |
| Seqs.Filter | main.py:166-170 | a list comprehension with a condition: every kept element comes from the input and passes the test, every passing element is kept as many times as it occurs in the input, and the result is a subsequence of the input in input order |
| OrderedMap.Put | main.py:98 | `d[k] = v`: `k` now maps to `v`, every other key keeps its value, a present key keeps its place and a new key goes to the end |
| OrderedMap.Remove | main.py:104-105 | `del d[k]` behind `if k in d`: `k` is gone, every other key keeps its value, the order loses `k` only, and an absent key changes nothing |
| OrderedMap.Values | main.py:111 | `d.values()`: one value per key, in insertion order |
| Dates.OrdinalOrder | main.py:114 | comparing two valid dates field by field agrees with comparing their day ordinals |
| Dates.OrdinalInjective | main.py:117 | two valid dates have equal ordinals exactly when they are equal |
| Dates.OrdinalRange | main.py:109 | every valid date's ordinal lies between 1 and the ordinal of 9999-12-31 |
| Dates.LastDayOrdinal | main.py:109 | 9999-12-31, the last date Python accepts, is day 3652059 |
| Dates.YearStep | main.py:113-115 | the days before year y+1 are the days before y plus the length of y, 366 exactly in Gregorian leap years |
| Dates.NextDay | main.py:120-122 | the following valid date has ordinal one more |
| Dates.AddDays | main.py:109 | `d + timedelta(days=n)` succeeds exactly when the ordinal stays within 9999-12-31, and then gives the valid date n ordinals later; otherwise OverflowError("date value out of range") |
| Dates.ReplaceYear | main.py:113 | `replace(year=y)` succeeds exactly when the same month and day exist in year y; a year outside 1..9999 raises "year … is out of range" first, and otherwise the error is "day is out of range for month" |
| Dates.ReplaceYearFailsOnlyOnLeapDay | main.py:113 | within 1..9999, moving a date to another year fails exactly for 29 February moved to a common year |
| DateText.FormatDayMonthYear | main.py:26 | `strftime("%d.%m.%Y")`: ten characters with the dots at positions 2 and 5 |
| DateText.FormatYearMonthDay | main.py:126 | `strftime("%Y.%m.%d")`: ten characters with the dots at positions 4 and 7 |
| DateText.ParseDayMonthYear | main.py:21 | `strptime(s, "%d.%m.%Y")` succeeds exactly when the string is a day field, a dot, a month field, a dot and four digits (the language of CPython's `%d`, `%m` and `%Y` patterns) whose numbers form a real date, and then yields that date; a zero-padded `DD.MM.YYYY` string parses exactly when the day, month and year it spells form a real date, and then to that date |
| DateText.ParseThenFormat | main.py:21-26 | rendering a parsed zero-padded string gives back the same string |
| DateText.FormatThenParse | main.py:21-26 | rendering a valid date gives a zero-padded string that parses back to that date |
| DateText.UnpaddedAccepted | main.py:21 | `1.2.2000` parses as 1 February 2000 |
| DateText.DashedDateRejected | main.py:21 | `2001-02-03` does not parse |
| DateText.ImpossibleDateRejected | main.py:21 | `31.02.2001` does not parse |
| DateText.InstantKey | main.py:159 | `strftime("%Y%m%d%H%M%S")` of a valid instant: fourteen digits |
| DateText.InstantKeyCollision | main.py:159 | two instants get the same key exactly when they agree down to the second |
| Fields.NewPhone | main.py:29-33 | `Phone(v)` succeeds exactly when v has length 10 and every character is a digit; it stores v unchanged, and otherwise raises "Phone number must be 10 digits." |
| Fields.NewEmail | main.py:36-40 | `Email(v)` succeeds exactly when both `@` and `.` occur in v; it stores v unchanged, and otherwise raises "Invalid email address." |
| Fields.NewAddress | main.py:43-47 | `Address(v)` succeeds exactly when v has a non-whitespace character, and stores `v.strip()`; otherwise raises "Address cannot be empty." |
| Fields.NewBirthday | main.py:19-23 | `Birthday(v)` yields a valid date or raises "Invalid date format. Use DD.MM.YYYY"; it succeeds exactly when the text is in the language of `%d.%m.%Y` and names a real date, yielding that date; for a zero-padded string it succeeds exactly when the string names a real date, and yields that date |
| Fields.BirthdayText | main.py:25-26 | `str(birthday)` is the zero-padded `DD.MM.YYYY` form, which `strptime` parses back to the same date |
| Fields.BirthdayRoundTrip | main.py:19-26 | a zero-padded birthday is displayed exactly as it was entered, and a displayed birthday reads back as the same date |
| Fields.ImpossibleBirthday | main.py:19-23 | `Birthday("31.02.2001")` raises the program's date-format error |
| Records.NewRecord | main.py:51-56 | `Record(name)` has the name, no phones, no optional field, and is well formed |
| Records.FindPhone | main.py:74-78 | `find_phone` finds the first phone equal to the value, and finds nothing exactly when no phone equals it |
| Records.AddPhone | main.py:58-59 | `add_phone` appends the number exactly when it is a valid phone; otherwise it raises the phone error and the record is unchanged |
| Records.RemovePhone | main.py:61-64 | `remove_phone` removes the first equal phone and keeps the others in order; an absent number changes nothing |
| Records.EditPhone | main.py:66-72 | `edit_phone` with an absent old number raises "Phone number not found." and changes nothing; with a present one it removes the first equal phone, then either appends the new number or raises the phone error with the old phone already gone |
| Records.AddBirthday | main.py:80-81 | `add_birthday` sets the parsed date exactly when the birthday parses; otherwise it raises and the record is unchanged |
| Records.AddEmail | main.py:83-84 | `add_email` sets the e-mail exactly when it contains `@` and `.`; otherwise it raises and the record is unchanged |
| Records.AddAddress | main.py:86-87 | `add_address` stores the stripped text exactly when the text has a non-space character; otherwise it raises and the record is unchanged |
| Records.SettersPreserveWellFormed | main.py:58-87 | adding a phone or setting a birthday, e-mail or address keeps every stored field valid and the name unchanged |
| Records.RemovePreservesWellFormed | main.py:61-64 | removing a phone keeps the record well formed and its name unchanged |
| Records.EditPreservesWellFormed | main.py:66-72 | editing a phone keeps the record well formed and its name unchanged, whether it succeeds or raises half-way |
| AddressBook.Find | main.py:100-101 | `find` yields a record exactly when the name is stored, and then the stored one; in a valid book it carries that name and is well formed |
| AddressBook.AddRecord | main.py:97-98 | `add_record` stores the record under its name, replacing any record stored there, leaves other names alone, keeps a present name's place and appends a new name to the order, and keeps the book valid |
| AddressBook.Delete | main.py:103-105 | `delete` removes the name, leaves other names alone and in their order, is a silent no-op for an absent name, and keeps the book valid |
| AddressBook.NextOccurrence | main.py:113-115 | the birthday moved to this year, or to next year when that date is past: same month and day, not before today, and next year only when this year's date is before today; failure is a ValueError |
| AddressBook.NextOccurrenceIsEarliest | main.py:113-115 | no date with the birthday's month and day lies between today and the occurrence found |
| AddressBook.NextOccurrenceFailure | main.py:113-115 | below year 9999 the lookup fails exactly for a 29 February birthday, in a common year or once 29 February of a leap year has passed |
| AddressBook.CongratulationDate | main.py:118-122 | a Saturday moves two days and a Sunday one day later, other days stay, and the result is never a Saturday or a Sunday |
| AddressBook.WeekendShift | main.py:119-122 | 9999-12-31 is a Friday, so the Monday after a weekend date is always within range |
| AddressBook.WindowByOrdinal | main.py:117 | `today <= bday <= this_week` on dates is the window test on day ordinals |
| AddressBook.Visit | main.py:112-127 | one turn of the loop succeeds exactly when the record's next birthday can be computed, and yields the greeting for a due record and nothing otherwise |
| AddressBook.Collect | main.py:111-127 | the loop over the records succeeds exactly when every record's next birthday can be computed, and then yields the reference result in record order |
| AddressBook.GetUpcomingBirthdays | main.py:106-129 | succeeds exactly when today + 7 days is in range and every record's birthday can be moved; then the result is the reference result over the records in book order; when today + 7 days passes 9999-12-31 it raises OverflowError("date value out of range") before looking at any record, which `input_error` does not catch; otherwise a failure is the ValueError of a record's `replace` |
| AddressBook.ExpectedMembership | main.py:111-127 | a greeting is in the result exactly when some record is due (its next birthday lies in [today, today + 7]) and the greeting carries that record's name and congratulation date |
| AddressBook.ExpectedDates | main.py:117-122 | every congratulation date in the result is a weekday between today and today + 9 |
| AddressBook.SaturdayBirthdayGreetedOnMonday | main.py:106-129 | with today Monday 10 March 2025, a birthday on 15 March is congratulated on Monday 17 March |
| Notes.Edit | main.py:138-139 | `edit` replaces the text and keeps the tags and creation time |
| Notes.AddTag | main.py:142-144 | `add_tag` leaves a present tag alone and otherwise appends it; the tag is then present, and a duplicate-free tag list stays duplicate-free |
| Notes.RemoveTag | main.py:147-149 | `remove_tag` of an absent tag is a no-op; otherwise it removes the first copy only; in a duplicate-free list the tag is then gone |
| Notes.RemoveTagLeavesDuplicate | main.py:133-149 | the constructor keeps a repeated tag, and `remove_tag` then removes only one copy |
| Notes.NoteKey | main.py:159 | a note's key is fourteen digits |
| Notes.AddNote | main.py:158-159 | `add_note` stores the note under the key of its creation time, leaves other keys alone, keeps a present key's place or appends a new key, and keeps every note stored under its own key |
| Notes.AddNoteCollision | main.py:159 | a note created in the same second as a stored note replaces it in place; otherwise the note is appended and every stored note is kept |
| Notes.DeleteNote | main.py:161-163 | `delete_note` removes the key, leaves other keys alone and in their order, and is a silent no-op for an absent key |
| Notes.EditNote | main.py:172-174 | `edit_note` replaces the stored note's text in place and leaves other notes alone; an absent key changes nothing |
| Notes.FindByTag | main.py:165-167 | `find_by_tag` returns exactly the stored notes that have a tag containing the keyword case-insensitively, in store order |
| Notes.SearchText | main.py:169-170 | `search_text` returns exactly the stored notes whose text contains the keyword case-insensitively, in store order |
| Notes.EmptyKeyword | main.py:165-170 | the empty keyword finds every note that has a tag, and every note by text |
| Notes.TagSearchIgnoresCase | main.py:165-167 | a note tagged `Work` is found by `wORK` |
| Notes.AllNotes | main.py:176-177 | `get_all_notes` lists every key with its note, in store order |
| Handlers.InputError | main.py:180-191 | a KeyError becomes "Contact not found.", a ValueError its message, and an IndexError "Not enough parameters."; any other exception passes through |
| Handlers.UnpackError | main.py:210 | the ValueError of unpacking the wrong number of words: a message starting "not enough values to unpack" with both counts when there are too few, and "too many values to unpack" with the expected count when there are too many |
| Handlers.UnpackAtLeastError | main.py:196 | the ValueError of `name, phone, *_ = args` with fewer than two words: "not enough values to unpack" naming "expected at least 2" and the count given |
| Handlers.AddContact | main.py:194-205 | needs at least two words. Creates and stores the contact when the name is new, then adds a non-empty phone. An invalid phone replies with the phone error, and a new contact is kept with no phones. Other names are untouched, a new name is appended to the order, and the reply never raises |
| Handlers.AddContactKeepsContactOnBadPhone | main.py:199-204 | a new name with an invalid phone replies with the phone error, yet the name now has an empty record |
| Handlers.ChangeContact | main.py:208-216 | needs exactly three words and a known name. The record changes as `edit_phone` leaves it, also when that raises. The reply is "Phone updated.", "Phone number not found." or the phone error; the order of names is unchanged |
| Handlers.AddPhone | main.py:303-311 | a valid phone is appended to the named contact with reply "Phone added."; otherwise the book is unchanged and the reply is the error; the order of names never changes |
| Handlers.RemovePhone | main.py:293-301 | the first equal phone of the named contact is removed and the reply is "Phone removed." either way; an unknown name or a wrong word count changes nothing; the order of names never changes |
| Handlers.AddBirthday | main.py:239-247 | a parsable birthday is set on the named contact with reply "Birthday added."; otherwise the book is unchanged and the reply is the error; the order of names never changes |
| Handlers.AddEmail | main.py:272-280 | an e-mail containing `@` and `.` is set on the named contact with reply "Email added."; otherwise the book is unchanged and the reply is the error; the order of names never changes |
| Handlers.Join | main.py:317 | `' '.join(parts)`: empty for no parts, begins with the first part, and its length is the parts' total plus one separator between each two neighbours |
| Handlers.JoinAppend | main.py:317 | joining one more part appends the separator and that part |
| Handlers.AddAddress | main.py:314-323 | the words after the name, joined by spaces and stripped, become the address; all-whitespace text, an unknown name or no words leave the book unchanged with the matching reply; the order of names never changes |
| Handlers.AddAddressNeedsText | main.py:316-320 | a name with no address words is refused with "Address cannot be empty." |
| Handlers.AddNote | main.py:337-347 | no words replies "Please provide a note text."; otherwise the note made of the first word and the remaining tags is stored under the key of `now` with reply "Note added.", keeping that key's place or appending it |
| Handlers.DeleteNote | main.py:349-356 | a present key is removed with reply "Note <id> deleted."; an absent key replies "Note ID not found." and changes nothing; no words replies "Not enough parameters."; the order loses only the deleted key |
| SimpleBook.ValidatePhone | HW1807.py:10-12 | true exactly when the string is `+380` followed by nine digits |
| SimpleBook.ValidateEmail | HW1807.py:14-16 | true exactly when the string matches `[\w.-]+@[\w.-]+\.\w+` for some choice of the `@` and final-dot positions |
| SimpleBook.EmailSplitIsUnique | HW1807.py:14-16 | a matching split is always at the first `@` and the last dot |
| SimpleBook.EmailHasOneAt | HW1807.py:14-16 | an accepted e-mail address contains exactly one `@` |
| SimpleBook.NewContact | HW1807.py:4-8 | the constructor keeps the name, and stores the phone or e-mail exactly when it validates, unchanged, with None otherwise |
| SimpleBook.Find | HW1807.py:32-33 | `find` yields a contact exactly when the name is stored, and then the stored one; in a valid book it carries that name and holds valid values |
| SimpleBook.AddContact | HW1807.py:26-30 | a present name replies "Контакт вже існує." and leaves the book unchanged; a new name is stored at the end with reply "Контакт додано." and other entries untouched |
| SimpleBook.Delete | HW1807.py:35-39 | a present name is removed with reply "Контакт видалено." and other entries untouched and in their order; otherwise the reply is "Контакт не знайдено." and nothing changes |
| SimpleBook.Edit | HW1807.py:41-49 | on a present name a given phone or e-mail replaces the stored one only when it validates; an empty or invalid value keeps the old one. The name and position never change, and the reply is "Контакт оновлено." An absent name replies "Контакт не знайдено." and nothing changes |

## Left out

- Console I/O is not modelled, because it is input and output rather than record logic:
  - the interactive loops (`main` in both files);
  - `print_available_commands`;
  - `parse_input`, a whitespace split.
- Pickle persistence (`save_data` and `load_data` in both files) is not modelled, because it is file I/O and opaque serialisation. Note that main.py:455 calls `save_data` with one argument where two are required.
- The display handlers `show_phone`, `show_all`, `show_birthday`, `show_email`, `show_address`, `show_notes` and `birthdays` are not modelled. Neither are the `__str__` methods other than `Birthday.__str__`, nor HW1807's `show_all` and `find_contact_by_full_name`. They only format text.
- `datetime.today()` and `datetime.now()` become parameters. The microseconds of an instant only matter in that the note key drops them.
- `AddressBook.GetUpcomingBirthdays` returns the congratulation date as a date. The program stores its `%Y.%m.%d` text, which is `DateText.FormatYearMonthDay` of that date.
- `Field` and `Name` are plain wrappers around a value; the model stores the value itself.
- Fields.NewPhone: `str.isdigit` accepts every Unicode digit; the model accepts only `0`-`9`.
- Text.Strip: Python strips every Unicode whitespace character; the model strips the ASCII ones (tab to carriage return, 0x1C-0x1F and space).
- Notes.FindByTag: `str.lower` folds every Unicode letter; the model folds `A`-`Z` only. Notes.SearchText has the same restriction.
- SimpleBook.ValidatePhone: `\d` accepts every Unicode digit, and `$` also matches before a final newline; the model accepts ASCII digits and no trailing newline.
- SimpleBook.ValidateEmail: `\w` accepts every Unicode letter and digit, and `$` also matches before a final newline; the model uses ASCII word characters and no trailing newline.
- SimpleBook.NewContact takes strings. `Contact(name)` with the default `None` raises TypeError inside `re.match`, and the program never does that.
- DateText.FormatDayMonthYear, DateText.FormatYearMonthDay and DateText.InstantKey write years below 1000 with four digits. Some platforms' `strftime("%Y")` does not pad them.
- DateText.ParseDayMonthYear: the `\d` of the `%d` and `%Y` patterns matches every Unicode decimal digit, and `int()` converts them, so Python accepts `01.01.٢٠٠٠`; the model accepts ASCII digits only.
- Dates.ReplaceYear uses the error message of CPython 3.12 and earlier ("day is out of range for month"); CPython 3.13 names the day, month and year in it.
- Handlers.UnpackError uses the unpacking messages of CPython 3.12. Later versions also report the count in the too-many case.

=== FILE: address_book.dfy ===
/** main.py's `AddressBook`: a dictionary from contact name to `Record`,
    and the upcoming-birthday query over it. */
module AddressBook {
  import opened Wrappers
  import opened Exceptions
  import opened Dates
  import opened Records
  import OrderedMap
  import Seqs

  type Book = OrderedMap.Dict<Record>

  /** Each record is stored under its own name and is well formed. */
  ghost predicate BookValid(b: Book) {
    && OrderedMap.Valid(b)
    && forall k :: k in b.items ==> b.items[k].name == k && WellFormed(b.items[k])
  }

  /** `find`: the record stored under `name`, or None; in a valid book it
      is a well-formed record of that name. */
  function Find(b: Book, name: string): (r: Option<Record>)
    ensures r.Some? <==> name in b.items
    ensures r.Some? ==> r.value == b.items[name]
    ensures BookValid(b) && r.Some? ==> r.value.name == name && WellFormed(r.value)
  {
    OrderedMap.Get(b, name)
  }

  /** `add_record`: stores `r` under its name, replacing any record already
      there. */
  function AddRecord(b: Book, r: Record): (res: Book)
    requires OrderedMap.Valid(b)
    ensures OrderedMap.Valid(res)
    ensures Find(res, r.name) == Some(r)
    ensures forall n :: n != r.name ==> Find(res, n) == Find(b, n)
    ensures r.name in b.items ==> res.order == b.order
    ensures r.name !in b.items ==> res.order == b.order + [r.name]
    ensures BookValid(b) && WellFormed(r) ==> BookValid(res)
  {
    OrderedMap.Put(b, r.name, r)
  }

  /** `delete`: removes the record stored under `name`; a silent no-op when
      there is none. */
  function Delete(b: Book, name: string): (res: Book)
    requires OrderedMap.Valid(b)
    ensures OrderedMap.Valid(res)
    ensures Find(res, name) == None
    ensures forall n :: n != name ==> Find(res, n) == Find(b, n)
    ensures Find(b, name).None? ==> res == b
    ensures res.order == Seqs.RemoveFirst(b.order, name)
    ensures BookValid(b) ==> BookValid(res)
  {
    OrderedMap.Remove(b, name)
  }

  // ------------------------------------------------------------ birthdays

  /** One entry of `get_upcoming_birthdays`: the contact's name and the day
      to congratulate them. The program renders the date as `%Y.%m.%d`
      (`DateText.FormatYearMonthDay`). */
  datatype Greeting = Greeting(name: string, congratulationDate: Date)

  /** The birthday moved to this year, or to next year when this year's
      date is already past. `replace(year=...)` raises for 29 February in a
      common year, and for year 10000. */
  function NextOccurrence(birthday: Date, today: Date): (r: Result<Date, Exception>)
    requires Valid(birthday) && Valid(today)
    ensures r.Success? ==> Valid(r.value)
    ensures r.Success? ==> r.value.month == birthday.month && r.value.day == birthday.day
    ensures r.Success? ==> !Before(r.value, today)
    ensures r.Success? ==>
              r.value.year == today.year
              || (r.value.year == today.year + 1
                  && Before(Date(today.year, birthday.month, birthday.day), today))
    ensures r.Failure? ==> r.error.ValueError?
  {
    var bday :- ReplaceYear(birthday, today.year);
    if Before(bday, today) then ReplaceYear(birthday, today.year + 1) else Success(bday)
  }

  /** The occurrence found is the earliest anniversary of the birthday that
      is not before today. */
  lemma NextOccurrenceIsEarliest(birthday: Date, today: Date, other: Date)
    requires Valid(birthday) && Valid(today) && Valid(other)
    requires NextOccurrence(birthday, today).Success?
    requires other.month == birthday.month && other.day == birthday.day
    requires !Before(other, today)
    ensures !Before(other, NextOccurrence(birthday, today).value)
  {
  }

  /** Below year 9999 the lookup fails only for a 29 February birthday:
      always in a common year, and in a leap year once 29 February has
      passed, because next year is then common. */
  lemma NextOccurrenceFailure(birthday: Date, today: Date)
    requires Valid(birthday) && Valid(today) && today.year < MaxYear
    ensures NextOccurrence(birthday, today).Failure? <==>
              birthday.month == 2 && birthday.day == 29
              && (!IsLeap(today.year) || Before(Date(today.year, 2, 29), today))
  {
    ReplaceYearFailsOnlyOnLeapDay(birthday, today.year);
    ReplaceYearFailsOnlyOnLeapDay(birthday, today.year + 1);
  }

  /** A weekend date moved to the following Monday: Saturday by two days,
      Sunday by one. Weekdays stay. */
  function CongratulationDate(d: Date): (c: Date)
    requires Valid(d)
    ensures Valid(c)
    ensures Weekday(c) != Saturday && Weekday(c) != Sunday
    ensures Weekday(d) == Saturday ==> Ordinal(c) == Ordinal(d) + 2
    ensures Weekday(d) == Sunday ==> Ordinal(c) == Ordinal(d) + 1
    ensures Weekday(d) < Saturday ==> c == d
  {
    OrdinalRange(d);
    var o := Ordinal(d);
    if Weekday(d) == Saturday then
      WeekendShift(o, 2);
      AddDays(d, 2).value
    else if Weekday(d) == Sunday then
      WeekendShift(o, 1);
      AddDays(d, 1).value
    else d
  }

  /** 9999-12-31 is a Friday, so a Saturday or Sunday of the calendar always
      has its Monday within range, and that Monday is a weekday. */
  lemma WeekendShift(o: int, k: int)
    requires 1 <= o <= MaxOrdinal
    requires (k == 2 && (o + 6) % 7 == Saturday) || (k == 1 && (o + 6) % 7 == Sunday)
    ensures o + k <= MaxOrdinal
    ensures (o + k + 6) % 7 == 0
  {
  }

  /** The record's birthday comes up within the seven days after today,
      both ends included. */
  predicate Due(r: Record, today: Date)
    requires Valid(today) && WellFormed(r)
  {
    && r.birthday.Some?
    && NextOccurrence(r.birthday.value, today).Success?
    && Ordinal(today) <= Ordinal(NextOccurrence(r.birthday.value, today).value) <= Ordinal(today) + 7
  }

  /** The record's next birthday can be computed (Python does not raise on it). */
  predicate Computable(r: Record, today: Date)
    requires Valid(today) && WellFormed(r)
  {
    r.birthday.None? || NextOccurrence(r.birthday.value, today).Success?
  }

  predicate AllWellFormed(records: seq<Record>) {
    forall i :: 0 <= i < |records| ==> WellFormed(records[i])
  }

  /** The greeting a record contributes: one when it is due, none otherwise. */
  function Contribution(r: Record, today: Date): seq<Greeting>
    requires Valid(today) && WellFormed(r)
  {
    if Due(r, today)
    then [Greeting(r.name, CongratulationDate(NextOccurrence(r.birthday.value, today).value))]
    else []
  }

  /** Reference definition of the query: one greeting per due record, in
      the order of `records`. */
  function Expected(records: seq<Record>, today: Date): seq<Greeting>
    requires Valid(today) && AllWellFormed(records)
  {
    if records == [] then []
    else Contribution(records[0], today) + Expected(records[1..], today)
  }

  lemma BookRecordsWellFormed(b: Book)
    requires BookValid(b)
    ensures AllWellFormed(OrderedMap.Values(b))
  {
    var vs := OrderedMap.Values(b);
    forall i | 0 <= i < |vs| ensures WellFormed(vs[i]) {
      assert b.order[i] in b.items;
    }
  }

  /** The body of the loop of `get_upcoming_birthdays` for one record, in
      Python's terms: date comparisons against `today` and `this_week`. */
  function Visit(record: Record, today: Date, thisWeek: Date): (r: Result<seq<Greeting>, Exception>)
    requires Valid(today) && Valid(thisWeek) && WellFormed(record)
    requires Ordinal(thisWeek) == Ordinal(today) + 7
    ensures r.Success? <==> Computable(record, today)
    ensures r.Success? ==> r.value == Contribution(record, today)
    ensures r.Failure? ==> r.error.ValueError?
  {
    if record.birthday.None? then Success([])
    else
      var bday :- NextOccurrence(record.birthday.value, today);
      WindowByOrdinal(today, thisWeek, bday);
      if NotAfter(today, bday) && NotAfter(bday, thisWeek)
      then Success([Greeting(record.name, CongratulationDate(bday))])
      else Success([])
  }

  /** One turn of the loop: appending the record's contribution to the
      greetings so far keeps them a prefix of the reference result. */
  lemma ExpectedStep(records: seq<Record>, i: int, today: Date, upcoming: seq<Greeting>, found: seq<Greeting>)
    requires Valid(today) && AllWellFormed(records) && 0 <= i < |records|
    requires found == Contribution(records[i], today)
    requires upcoming + Expected(records[i..], today) == Expected(records, today)
    ensures (upcoming + found) + Expected(records[i + 1..], today) == Expected(records, today)
  {
    ExpectedUnfold(records, i, today);
    Regroup(upcoming, found, Expected(records[i + 1..], today));
  }

  lemma ExpectedUnfold(records: seq<Record>, i: int, today: Date)
    requires Valid(today) && AllWellFormed(records) && 0 <= i < |records|
    ensures Expected(records[i..], today) ==
              Contribution(records[i], today) + Expected(records[i + 1..], today)
  {
    assert records[i..][0] == records[i];
    assert records[i..][1..] == records[i + 1..];
  }

  lemma Regroup<T>(a: seq<T>, b: seq<T>, c: seq<T>)
    ensures (a + b) + c == a + (b + c)
  {
  }

  /** `get_upcoming_birthdays`, with `datetime.today()` passed in as
      `today`. It walks the records in book order, moves each birthday to
      its next occurrence, keeps it when it lies between today and today + 7
      days inclusive, and moves a weekend date to Monday. It fails when
      today + 7 days passes 9999-12-31 or some record's next occurrence
      cannot be computed. */
  method GetUpcomingBirthdays(book: Book, today: Date) returns (res: Result<seq<Greeting>, Exception>)
    requires BookValid(book) && Valid(today)
    ensures res.Success? <==>
              Ordinal(today) + 7 <= MaxOrdinal
              && forall i :: 0 <= i < |OrderedMap.Values(book)| ==> Computable(OrderedMap.Values(book)[i], today)
    ensures res.Success? ==> res.value == Expected(OrderedMap.Values(book), today)
    ensures Ordinal(today) + 7 > MaxOrdinal ==> res == Failure(OverflowError("date value out of range"))
    ensures Ordinal(today) + 7 <= MaxOrdinal && res.Failure? ==> res.error.ValueError?
  {
    var records := OrderedMap.Values(book);
    BookRecordsWellFormed(book);
    var thisWeek :- AddDays(today, 7);
    res := Collect(records, today, thisWeek);
  }

  /** The loop of `get_upcoming_birthdays` over `records`, with
      `thisWeek` already computed. */
  method Collect(records: seq<Record>, today: Date, thisWeek: Date) returns (res: Result<seq<Greeting>, Exception>)
    requires Valid(today) && Valid(thisWeek) && AllWellFormed(records)
    requires Ordinal(thisWeek) == Ordinal(today) + 7
    ensures res.Success? <==> forall i :: 0 <= i < |records| ==> Computable(records[i], today)
    ensures res.Success? ==> res.value == Expected(records, today)
    ensures res.Failure? ==> res.error.ValueError?
  {
    var upcoming := [];
    var i := 0;
    assert records[i..] == records;
    while i < |records|
      invariant 0 <= i <= |records|
      invariant forall j :: 0 <= j < i ==> Computable(records[j], today)
      invariant upcoming + Expected(records[i..], today) == Expected(records, today)
    {
      var found :- Visit(records[i], today, thisWeek);
      ExpectedStep(records, i, today, upcoming, found);
      upcoming := upcoming + found;
      i := i + 1;
    }
    assert records[i..] == [];
    return Success(upcoming);
  }

  /** Python's `today <= bday <= this_week` on dates is the window test on
      day ordinals. */
  lemma WindowByOrdinal(today: Date, thisWeek: Date, bday: Date)
    requires Valid(today) && Valid(thisWeek) && Valid(bday)
    requires Ordinal(thisWeek) == Ordinal(today) + 7
    ensures NotAfter(today, bday) && NotAfter(bday, thisWeek) <==>
              Ordinal(today) <= Ordinal(bday) <= Ordinal(today) + 7
  {
    OrdinalOrder(today, bday);
    OrdinalOrder(bday, thisWeek);
    OrdinalInjective(today, bday);
    OrdinalInjective(bday, thisWeek);
  }

  // ------------------------------------------------- query properties

  /** `g` is the greeting built for `r`: its birthday is due and `g` names
      it with the congratulation date of its next occurrence. */
  predicate GreetedFor(r: Record, today: Date, g: Greeting)
    requires Valid(today) && WellFormed(r)
  {
    && Due(r, today)
    && g == Greeting(r.name, CongratulationDate(NextOccurrence(r.birthday.value, today).value))
  }

  /** A greeting is in the reference result exactly when some record is due
      and the greeting is the one built for it. */
  lemma {:induction false} ExpectedMembership(records: seq<Record>, today: Date, g: Greeting)
    requires Valid(today) && AllWellFormed(records)
    ensures g in Expected(records, today) <==>
              exists i :: 0 <= i < |records| && GreetedFor(records[i], today, g)
  {
    if records != [] {
      var rest := records[1..];
      ExpectedMembership(rest, today, g);
      if g in Expected(records, today) {
        if g in Contribution(records[0], today) {
          assert GreetedFor(records[0], today, g);
        } else {
          var k :| 0 <= k < |rest| && GreetedFor(rest[k], today, g);
          assert records[k + 1] == rest[k];
        }
      }
      if exists i :: 0 <= i < |records| && GreetedFor(records[i], today, g) {
        var i :| 0 <= i < |records| && GreetedFor(records[i], today, g);
        if i > 0 {
          assert rest[i - 1] == records[i];
        }
      }
    }
  }

  /** Every congratulation date is a real weekday between today and nine
      days later: a birthday at most seven days ahead, moved at most two
      days forward off a weekend. */
  lemma {:induction false} ExpectedDates(records: seq<Record>, today: Date)
    requires Valid(today) && AllWellFormed(records)
    ensures forall g :: g in Expected(records, today) ==>
              && Valid(g.congratulationDate)
              && Weekday(g.congratulationDate) != Saturday
              && Weekday(g.congratulationDate) != Sunday
              && Ordinal(today) <= Ordinal(g.congratulationDate) <= Ordinal(today) + 9
  {
    if records != [] {
      ExpectedDates(records[1..], today);
    }
  }

  /** With today Monday 10 March 2025, a birthday on 15 March 1990 falls on
      Saturday 15 March 2025 and is greeted on Monday 17 March. */
  lemma SaturdayBirthdayGreetedOnMonday()
    ensures Expected([Record("Ann", [], Some(Date(1990, 3, 15)), None, None)], Date(2025, 3, 10))
            == [Greeting("Ann", Date(2025, 3, 17))]
  {
    var r := Record("Ann", [], Some(Date(1990, 3, 15)), None, None);
    var today := Date(2025, 3, 10);
    assert NextOccurrence(Date(1990, 3, 15), today) == Success(Date(2025, 3, 15));
    assert Ordinal(Date(2025, 3, 15)) == Ordinal(today) + 5;
    assert Weekday(Date(2025, 3, 15)) == Saturday;
    var c := CongratulationDate(Date(2025, 3, 15));
    assert Ordinal(c) == Ordinal(Date(2025, 3, 17));
    OrdinalInjective(c, Date(2025, 3, 17));
  }
}

=== FILE: date_text.dfy ===
/** The date parsing and rendering the contact book does through
    `strptime`/`strftime`.

    `datetime.strptime(s, "%d.%m.%Y")` matches `s` against the regular
    expression CPython builds from the format: `%d` is
    `3[01]|[12]\d|0[1-9]|[1-9]| [1-9]`, `%m` is `1[0-2]|0[1-9]|[1-9]`, `%Y`
    is `\d\d\d\d`, the dots are literal, and the whole string must be
    consumed. No field can contain a dot, so the match exists exactly when
    the string splits at its two dots into a day field, a month field and
    four digits; the parsed numbers must then name a real date. */
module DateText {
  import opened Wrappers
  import opened Text
  import opened Dates
  import Seqs

  predicate IsNonZeroDigit(c: char) {
    '1' <= c <= '9'
  }

  /** A string in the language of `%d`. */
  predicate DayField(f: string) {
    || (|f| == 1 && IsNonZeroDigit(f[0]))
    || (|f| == 2 && (
         || (f[0] == ' ' && IsNonZeroDigit(f[1]))
         || (f[0] == '0' && IsNonZeroDigit(f[1]))
         || ((f[0] == '1' || f[0] == '2') && IsDigit(f[1]))
         || (f[0] == '3' && (f[1] == '0' || f[1] == '1'))))
  }

  /** A string in the language of `%m`. */
  predicate MonthField(f: string) {
    || (|f| == 1 && IsNonZeroDigit(f[0]))
    || (|f| == 2 && (
         || (f[0] == '0' && IsNonZeroDigit(f[1]))
         || (f[0] == '1' && '0' <= f[1] <= '2')))
  }

  /** The number a day or month field denotes; a leading space counts as
      nothing. */
  function FieldValue(f: string): nat
    requires DayField(f) || MonthField(f)
  {
    if |f| == 1 then DigitValue(f[0])
    else if f[0] == ' ' then DigitValue(f[1])
    else 10 * DigitValue(f[0]) + DigitValue(f[1])
  }

  /** `s` is in the language of `%d\.%m\.%Y` with its two dots at `i` and
      `j`: a day field, a dot, a month field, a dot and four digits. */
  predicate DotSplit(s: string, i: nat, j: nat) {
    && i < j < |s| && |s| == j + 5
    && s[i] == '.' && s[j] == '.'
    && DayField(s[..i]) && MonthField(s[i + 1..j]) && AllDigits(s[j + 1..])
  }

  /** The date the fields of such a string denote, valid or not. */
  function SplitDate(s: string, i: nat, j: nat): Date
    requires DotSplit(s, i, j)
  {
    Date(Value(s[j + 1..]), FieldValue(s[i + 1..j]), FieldValue(s[..i]))
  }

  /** The position of the first dot of `s` and of the first dot after it,
      which is where the parser splits the string. */
  function FirstDots(s: string): (r: Option<(nat, nat)>)
    ensures r.Some? ==> r.value.0 < r.value.1 < |s| && s[r.value.0] == '.' && s[r.value.1] == '.'
  {
    match Seqs.IndexOf(s, '.')
    case None => None
    case Some(i) =>
      match Seqs.IndexOf(s[i + 1..], '.')
      case None => None
      case Some(k) => Some((i, i + 1 + k))
  }

  /** `datetime.strptime(s, "%d.%m.%Y").date()`, with None for the
      ValueError it raises. It succeeds exactly when `s` is in the language
      of the format and its fields name a real date, and then returns that
      date; in particular a zero-padded `DD.MM.YYYY` string parses exactly
      when the day, month and year spelled there form a real date. */
  function ParseDayMonthYear(s: string): (r: Option<Date>)
    ensures r.Some? ==> Valid(r.value)
    ensures r.Some? <==> exists i: nat, j: nat :: DotSplit(s, i, j) && Valid(SplitDate(s, i, j))
    ensures forall i: nat, j: nat :: DotSplit(s, i, j) ==>
              r == if Valid(SplitDate(s, i, j)) then Some(SplitDate(s, i, j)) else None
    ensures ZeroPadded(s) ==> (r.Some? <==> Valid(NamedDate(s)))
    ensures ZeroPadded(s) && r.Some? ==> r.value == NamedDate(s)
  {
    ZeroPaddedSplit(s);
    DotSplitFindsDots(s);
    match FirstDots(s)
    case None => None
    case Some((i, j)) =>
      if DotSplit(s, i, j) && Valid(SplitDate(s, i, j)) then Some(SplitDate(s, i, j)) else None
  }

  /** A zero-padded string is split at positions 2 and 5, is in the
      format's language exactly when its day and month are in range, and
      then denotes the date it spells. */
  lemma ZeroPaddedSplit(s: string)
    ensures ZeroPadded(s) ==>
              && FirstDots(s) == Some((2, 5))
              && (DotSplit(s, 2, 5) <==> 1 <= Value(s[..2]) <= 31 && 1 <= Value(s[3..5]) <= 12)
              && (DotSplit(s, 2, 5) ==> SplitDate(s, 2, 5) == NamedDate(s))
  {
    if ZeroPadded(s) {
      ZeroPaddedFields(s);
      assert s[2 + 1..][..2] == s[3..5];
    }
  }

  /** Neither a day nor a month field contains a dot, so the two dots of a
      string in the format's language are the first dot of the string and
      the first dot after it: the split the parser finds is the only one. */
  lemma DotSplitFindsDots(s: string)
    ensures forall i: nat, j: nat :: DotSplit(s, i, j) ==> FirstDots(s) == Some((i, j))
  {
    forall i: nat, j: nat | DotSplit(s, i, j)
      ensures FirstDots(s) == Some((i, j))
    {
      var df, rest := s[..i], s[i + 1..];
      assert forall k :: 0 <= k < i ==> s[k] == df[k];
      assert forall k :: 0 <= k < j - i - 1 ==> rest[k] == s[i + 1..j][k];
      assert Seqs.FirstIndex(s, '.', i);
      assert Seqs.FirstIndex(rest, '.', j - i - 1);
      FirstIndexUnique(s, '.', i);
      FirstIndexUnique(rest, '.', j - i - 1);
    }
  }

  lemma FirstIndexUnique(xs: string, x: char, i: nat)
    requires Seqs.FirstIndex(xs, x, i)
    ensures Seqs.IndexOf(xs, x) == Some(i)
  {
    var k := Seqs.IndexOf(xs, x).value;
    assert Seqs.FirstIndex(xs, x, k);
  }

  /** `d.strftime("%d.%m.%Y")`. */
  function FormatDayMonthYear(d: Date): (s: string)
    requires Valid(d)
    ensures |s| == 10 && s[2] == '.' && s[5] == '.'
  {
    Padded(d.day, 2) + "." + Padded(d.month, 2) + "." + Padded(d.year, 4)
  }

  /** `d.strftime("%Y.%m.%d")`. */
  function FormatYearMonthDay(d: Date): (s: string)
    requires Valid(d)
    ensures |s| == 10 && s[4] == '.' && s[7] == '.'
  {
    Padded(d.year, 4) + "." + Padded(d.month, 2) + "." + Padded(d.day, 2)
  }

  /** The ten-character shape `DD.MM.YYYY` with every other character a
      digit. */
  predicate ZeroPadded(s: string) {
    && |s| == 10 && s[2] == '.' && s[5] == '.'
    && AllDigits(s[..2]) && AllDigits(s[3..5]) && AllDigits(s[6..])
  }

  /** The date a zero-padded string names, valid or not. */
  function NamedDate(s: string): Date
    requires ZeroPadded(s)
  {
    Date(Value(s[6..]), Value(s[3..5]), Value(s[..2]))
  }

  lemma DotPositions(s: string)
    requires ZeroPadded(s)
    ensures Seqs.IndexOf(s, '.') == Some(2)
    ensures Seqs.IndexOf(s[3..], '.') == Some(2)
  {
    assert s[..2][0] == s[0] && s[..2][1] == s[1];
    assert Seqs.FirstIndex(s, '.', 2);
    assert s[3..][..2] == s[3..5];
    assert s[3..5][0] == s[3] && s[3..5][1] == s[4];
    assert Seqs.FirstIndex(s[3..], '.', 2);
  }

  lemma TwoDigitField(f: string)
    requires |f| == 2 && AllDigits(f)
    ensures Value(f) == 10 * DigitValue(f[0]) + DigitValue(f[1])
    ensures 1 <= Value(f) <= 31 <==> DayField(f)
    ensures 1 <= Value(f) <= 12 <==> MonthField(f)
    ensures DayField(f) || MonthField(f) ==> FieldValue(f) == Value(f)
  {
    assert f[..1][..0] == [];
    assert f[..1][0] == f[0];
    assert Value(f[..1]) == DigitValue(f[0]);
  }

  /** How the parser splits a zero-padded string: the dots at positions 2
      and 5, and fields whose denoted numbers are their digit values. */
  lemma ZeroPaddedFields(s: string)
    ensures ZeroPadded(s) ==>
              && Seqs.IndexOf(s, '.') == Some(2)
              && Seqs.IndexOf(s[3..], '.') == Some(2)
              && s[3..][..2] == s[3..5] && s[3..][3..] == s[6..]
              && (1 <= Value(s[..2]) <= 31 <==> DayField(s[..2]))
              && (1 <= Value(s[3..5]) <= 12 <==> MonthField(s[3..5]))
              && (DayField(s[..2]) ==> FieldValue(s[..2]) == Value(s[..2]))
              && (MonthField(s[3..5]) ==> FieldValue(s[3..5]) == Value(s[3..5]))
  {
    if ZeroPadded(s) {
      DotPositions(s);
      var rest := s[3..];
      assert rest[..2] == s[3..5] && rest[3..] == s[6..];
      TwoDigitField(s[..2]);
      TwoDigitField(s[3..5]);
    }
  }

  /** Rendering a parsed zero-padded string gives the string back. */
  lemma {:induction false} ParseThenFormat(s: string)
    requires ZeroPadded(s) && ParseDayMonthYear(s).Some?
    ensures FormatDayMonthYear(ParseDayMonthYear(s).value) == s
  {
    var d := ParseDayMonthYear(s).value;
    PaddedValue(s[..2]);
    PaddedValue(s[3..5]);
    PaddedValue(s[6..]);
    assert s == s[..2] + "." + s[3..5] + "." + s[6..];
  }

  /** Parsing a rendered date gives the date back. */
  lemma {:induction false} FormatThenParse(d: Date)
    requires Valid(d)
    ensures ZeroPadded(FormatDayMonthYear(d))
    ensures ParseDayMonthYear(FormatDayMonthYear(d)) == Some(d)
  {
    var s := FormatDayMonthYear(d);
    assert s[..2] == Padded(d.day, 2);
    assert s[3..5] == Padded(d.month, 2);
    assert s[6..] == Padded(d.year, 4);
  }

  /** 31 February does not exist, so it does not parse. */
  /** Unpadded fields are in the format's language: `1.2.2000` is
      1 February 2000. */
  lemma UnpaddedAccepted()
    ensures ParseDayMonthYear("1.2.2000") == Some(Date(2000, 2, 1))
  {
    var s := "1.2.2000";
    assert s[..1] == "1" && s[2..3] == "2" && s[4..] == "2000";
    assert DayField("1") && MonthField("2") && AllDigits("2000");
    YearValue();
    assert DotSplit(s, 1, 3);
    assert SplitDate(s, 1, 3) == Date(2000, 2, 1);
    assert Valid(Date(2000, 2, 1));
  }

  lemma YearValue()
    ensures Value("2000") == 2000
  {
    assert "2000"[..3] == "200" && "200"[..2] == "20" && "20"[..1] == "2" && "2"[..0] == "";
  }

  /** Text with no dot is not a date: `2001-02-03` is rejected. */
  lemma DashedDateRejected()
    ensures ParseDayMonthYear("2001-02-03") == None
  {
    var s := "2001-02-03";
    assert forall k :: 0 <= k < |s| ==> s[k] != '.';
    NoDotNoDate(s);
  }

  lemma NoDotNoDate(s: string)
    requires forall k :: 0 <= k < |s| ==> s[k] != '.'
    ensures ParseDayMonthYear(s) == None
  {
  }

  lemma ImpossibleDateRejected()
    ensures ParseDayMonthYear("31.02.2001") == None
  {
    var s := "31.02.2001";
    assert s[..2] == "31" && s[3..5] == "02" && s[6..] == "2001";
    assert AllDigits("31") && AllDigits("02") && AllDigits("2001");
    assert ZeroPadded(s);
    TwoDigitField("31");
    TwoDigitField("02");
    assert !Valid(NamedDate(s));
  }

  lemma SplitEqual(a1: string, a2: string, b1: string, b2: string)
    requires a1 + a2 == b1 + b2 && |a1| == |b1|
    ensures a1 == b1 && a2 == b2
  {
    assert a1 == (a1 + a2)[..|a1|] && b1 == (b1 + b2)[..|b1|];
    assert a2 == (a1 + a2)[|a1|..] && b2 == (b1 + b2)[|b1|..];
  }

  /** `t.strftime("%Y%m%d%H%M%S")`, the key a note is stored under. */
  function InstantKey(t: Instant): (k: string)
    requires ValidInstant(t)
    ensures |k| == 14 && AllDigits(k)
  {
    Padded(t.date.year, 4) + (Padded(t.date.month, 2) + (Padded(t.date.day, 2)
    + (Padded(t.hour, 2) + (Padded(t.minute, 2) + Padded(t.second, 2)))))
  }

  /** Two instants within the same second: the key drops the microseconds. */
  predicate SameSecond(a: Instant, b: Instant) {
    a.date == b.date && a.hour == b.hour && a.minute == b.minute && a.second == b.second
  }

  /** Two instants get the same key exactly when they agree down to the
      second: notes created within one second collide. */
  lemma {:induction false} InstantKeyCollision(a: Instant, b: Instant)
    requires ValidInstant(a) && ValidInstant(b)
    ensures InstantKey(a) == InstantKey(b) <==> SameSecond(a, b)
  {
    if InstantKey(a) == InstantKey(b) {
      var da, db := a.date, b.date;
      var wa := Padded(a.minute, 2) + Padded(a.second, 2);
      var wb := Padded(b.minute, 2) + Padded(b.second, 2);
      var va := Padded(a.hour, 2) + wa;
      var vb := Padded(b.hour, 2) + wb;
      var ua := Padded(da.day, 2) + va;
      var ub := Padded(db.day, 2) + vb;
      var ta := Padded(da.month, 2) + ua;
      var tb := Padded(db.month, 2) + ub;
      SplitEqual(Padded(da.year, 4), ta, Padded(db.year, 4), tb);
      SplitEqual(Padded(da.month, 2), ua, Padded(db.month, 2), ub);
      SplitEqual(Padded(da.day, 2), va, Padded(db.day, 2), vb);
      SplitEqual(Padded(a.hour, 2), wa, Padded(b.hour, 2), wb);
      SplitEqual(Padded(a.minute, 2), Padded(a.second, 2), Padded(b.minute, 2), Padded(b.second, 2));
    }
  }
}

=== FILE: dates.dfy ===
/** Python's `datetime.date` restricted to what the contact book uses: the
    proleptic Gregorian calendar on years 1..9999, the day ordinal
    (`toordinal`, with 0001-01-01 as day 1), `weekday()`, comparison,
    `replace(year=...)` and adding a whole number of days. */
module Dates {
  import opened Wrappers
  import opened Exceptions
  import Text

  const MinYear := 1
  const MaxYear := 9999
  /** `date(9999, 12, 31).toordinal()`. */
  const MaxOrdinal := 3652059

  datatype Date = Date(year: int, month: int, day: int)

  predicate IsLeap(y: int) {
    y % 4 == 0 && (y % 100 != 0 || y % 400 == 0)
  }

  function DaysInMonth(y: int, m: int): int
    requires 1 <= m <= 12
  {
    if m == 2 then (if IsLeap(y) then 29 else 28)
    else if m == 4 || m == 6 || m == 9 || m == 11 then 30
    else 31
  }

  function YearLength(y: int): int {
    if IsLeap(y) then 366 else 365
  }

  /** The dates `datetime.date` accepts. */
  predicate Valid(d: Date) {
    MinYear <= d.year <= MaxYear && 1 <= d.month <= 12
    && 1 <= d.day <= DaysInMonth(d.year, d.month)
  }

  /** Days in the years before `y`. */
  function DaysBeforeYear(y: int): int
    requires y >= 1
  {
    var y1 := y - 1;
    y1 * 365 + y1 / 4 - y1 / 100 + y1 / 400
  }

  /** Days in the months of year `y` before month `m`. */
  function DaysBeforeMonth(y: int, m: int): int
    requires 1 <= m <= 12
  {
    [0, 31, 59, 90, 120, 151, 181, 212, 243, 273, 304, 334][m - 1]
    + (if m > 2 && IsLeap(y) then 1 else 0)
  }

  /** `d.toordinal()`. */
  function Ordinal(d: Date): int
    requires Valid(d)
  {
    DaysBeforeYear(d.year) + DaysBeforeMonth(d.year, d.month) + d.day
  }

  /** `d.weekday()`: Monday is 0 and Sunday is 6. */
  function Weekday(d: Date): int
    requires Valid(d)
  {
    (Ordinal(d) + 6) % 7
  }

  const Saturday := 5
  const Sunday := 6

  /** Python's `a < b` on dates: field by field, year first. */
  predicate Before(a: Date, b: Date) {
    a.year < b.year
    || (a.year == b.year && (a.month < b.month || (a.month == b.month && a.day < b.day)))
  }

  /** Python's `a <= b` on dates. */
  predicate NotAfter(a: Date, b: Date) {
    a == b || Before(a, b)
  }

  // ------------------------------------------------------- ordinal lemmas

  lemma LastDayOrdinal()
    ensures Valid(Date(MaxYear, 12, 31)) && Ordinal(Date(MaxYear, 12, 31)) == MaxOrdinal
  {
  }

  /** The days before year `y + 1` are those before `y` plus the length of `y`. */
  lemma YearStep(y: int)
    requires y >= 1
    ensures DaysBeforeYear(y + 1) == DaysBeforeYear(y) + YearLength(y)
  {
    QuotientStep4(y);
    QuotientStep100(y);
    QuotientStep400(y);
    DivisorsNest(y);
    LeapCount(y, y / 4, (y - 1) / 4, y / 100, (y - 1) / 100, y / 400, (y - 1) / 400,
              y % 4 == 0, y % 100 == 0, y % 400 == 0);
  }

  /** The year-length bookkeeping of `YearStep` with the quotients named. */
  lemma LeapCount(y: int, a4: int, b4: int, a100: int, b100: int, a400: int, b400: int,
                  m4: bool, m100: bool, m400: bool)
    requires a4 == b4 + (if m4 then 1 else 0)
    requires a100 == b100 + (if m100 then 1 else 0)
    requires a400 == b400 + (if m400 then 1 else 0)
    requires (m400 ==> m100) && (m100 ==> m4)
    ensures y * 365 + a4 - a100 + a400
            == (y - 1) * 365 + b4 - b100 + b400 + (if m4 && (!m100 || m400) then 366 else 365)
  {
  }

  /** A multiple of 400 is a multiple of 100, which is a multiple of 4. */
  lemma DivisorsNest(y: int)
    ensures y % 400 == 0 ==> y % 100 == 0
    ensures y % 100 == 0 ==> y % 4 == 0
  {
  }

  /** Passing from `y - 1` to `y` adds one to the quotient by 4 exactly when
      4 divides `y`; likewise for 100 and 400. */
  lemma QuotientStep4(y: int)
    ensures y / 4 == (y - 1) / 4 + (if y % 4 == 0 then 1 else 0)
  {
  }

  lemma QuotientStep100(y: int)
    ensures y / 100 == (y - 1) / 100 + (if y % 100 == 0 then 1 else 0)
  {
  }

  lemma QuotientStep400(y: int)
    ensures y / 400 == (y - 1) / 400 + (if y % 400 == 0 then 1 else 0)
  {
  }

  lemma {:induction false} DaysBeforeYearGrows(a: int, b: int)
    requires 1 <= a < b
    ensures DaysBeforeYear(a) + YearLength(a) <= DaysBeforeYear(b)
    decreases b - a
  {
    YearStep(a);
    if a + 1 < b {
      DaysBeforeYearGrows(a + 1, b);
    }
  }

  /** A month starts where the previous month ends. */
  lemma MonthStep(y: int, m: int)
    requires 1 <= m < 12
    ensures DaysBeforeMonth(y, m + 1) == DaysBeforeMonth(y, m) + DaysInMonth(y, m)
  {
  }

  lemma MonthsFitYear(y: int, m: int)
    requires 1 <= m <= 12
    ensures DaysBeforeMonth(y, m) + DaysInMonth(y, m) <= YearLength(y)
  {
  }

  lemma {:induction false} DaysBeforeMonthGrows(y: int, a: int, b: int)
    requires 1 <= a < b <= 12
    ensures DaysBeforeMonth(y, a) + DaysInMonth(y, a) <= DaysBeforeMonth(y, b)
    decreases b - a
  {
    MonthStep(y, a);
    if a + 1 < b {
      DaysBeforeMonthGrows(y, a + 1, b);
    }
  }

  /** Comparing dates field by field is comparing their ordinals. */
  lemma OrdinalOrder(a: Date, b: Date)
    requires Valid(a) && Valid(b)
    ensures Before(a, b) <==> Ordinal(a) < Ordinal(b)
  {
    if a.year < b.year {
      MonthsFitYear(a.year, a.month);
      DaysBeforeYearGrows(a.year, b.year);
    } else if b.year < a.year {
      MonthsFitYear(b.year, b.month);
      DaysBeforeYearGrows(b.year, a.year);
    } else if a.month < b.month {
      DaysBeforeMonthGrows(a.year, a.month, b.month);
    } else if b.month < a.month {
      DaysBeforeMonthGrows(a.year, b.month, a.month);
    }
  }

  /** Distinct valid dates have distinct ordinals. */
  lemma OrdinalInjective(a: Date, b: Date)
    requires Valid(a) && Valid(b)
    ensures Ordinal(a) == Ordinal(b) <==> a == b
  {
    OrdinalOrder(a, b);
    OrdinalOrder(b, a);
  }

  lemma OrdinalRange(d: Date)
    requires Valid(d)
    ensures 1 <= Ordinal(d) <= MaxOrdinal
  {
    LastDayOrdinal();
    if d != Date(MaxYear, 12, 31) {
      OrdinalOrder(d, Date(MaxYear, 12, 31));
    }
  }

  // ----------------------------------------------------------- arithmetic

  /** The day after `d`, which exists below 9999-12-31. */
  function NextDay(d: Date): (r: Date)
    requires Valid(d) && Ordinal(d) < MaxOrdinal
    ensures Valid(r) && Ordinal(r) == Ordinal(d) + 1
  {
    if d.day < DaysInMonth(d.year, d.month) then Date(d.year, d.month, d.day + 1)
    else if d.month < 12 then
      MonthStep(d.year, d.month);
      Date(d.year, d.month + 1, 1)
    else
      LastDayOrdinal();
      YearStep(d.year);
      Date(d.year + 1, 1, 1)
  }

  /** `d + timedelta(days=n)`: the date `n` days later, or the
      OverflowError Python raises past 9999-12-31. */
  function AddDays(d: Date, n: nat): (r: Result<Date, Exception>)
    requires Valid(d)
    ensures r.Success? <==> Ordinal(d) + n <= MaxOrdinal
    ensures r.Success? ==> Valid(r.value) && Ordinal(r.value) == Ordinal(d) + n
    ensures r.Failure? ==> r.error == OverflowError("date value out of range")
    decreases n
  {
    if Ordinal(d) + n > MaxOrdinal then Failure(OverflowError("date value out of range"))
    else if n == 0 then Success(d)
    else AddDays(NextDay(d), n - 1)
  }

  /** `d.replace(year=y)`: the year is checked first, then the day (the
      only field that can stop fitting, on 29 February). */
  function ReplaceYear(d: Date, y: int): (r: Result<Date, Exception>)
    requires Valid(d)
    ensures r.Success? <==> Valid(Date(y, d.month, d.day))
    ensures r.Success? ==> r.value == Date(y, d.month, d.day)
    ensures !(MinYear <= y <= MaxYear) ==>
              r == Failure(ValueError("year " + Text.IntToString(y) + " is out of range"))
    ensures MinYear <= y <= MaxYear && r.Failure? ==>
              r.error == ValueError("day is out of range for month")
  {
    if !(MinYear <= y <= MaxYear) then
      Failure(ValueError("year " + Text.IntToString(y) + " is out of range"))
    else if d.day > DaysInMonth(y, d.month) then
      Failure(ValueError("day is out of range for month"))
    else Success(Date(y, d.month, d.day))
  }

  /** Within the calendar's range, moving a date to another year fails only
      for 29 February moved to a common year. */
  lemma ReplaceYearFailsOnlyOnLeapDay(d: Date, y: int)
    requires Valid(d) && MinYear <= y <= MaxYear
    ensures ReplaceYear(d, y).Failure? <==> d.month == 2 && d.day == 29 && !IsLeap(y)
  {
  }

  // ------------------------------------------------------------- instants

  /** A `datetime` down to the microsecond, as `datetime.now()` returns it. */
  datatype Instant = Instant(date: Date, hour: int, minute: int, second: int, microsecond: int)

  predicate ValidInstant(t: Instant) {
    Valid(t.date) && 0 <= t.hour < 24 && 0 <= t.minute < 60 && 0 <= t.second < 60
    && 0 <= t.microsecond < 1000000
  }
}

=== FILE: exceptions.dfy ===
/** The Python exceptions the contact book raises, and the shape of an
    operation that may change state before it raises. */
module Exceptions {
  import opened Wrappers

  /** The exception kinds that reach the command layer. Messages are the
      ones the interpreter or the program attaches. */
  datatype Exception =
    | ValueError(message: string)
    | KeyError
    | IndexError
    | OverflowError(message: string)

  /** The outcome of a Python statement sequence that mutates `state` and
      then either returns a value or raises. In Python the mutation done
      before the raise is not rolled back, so the state is reported in both
      cases. */
  datatype Effect<+S, +T> = Effect(state: S, result: Result<T, Exception>)
}

=== FILE: fields.dfy ===
/** The validated fields of a contact in main.py: `Phone`, `Email`,
    `Address` and `Birthday`. Each constructor either yields the stored
    value or the ValueError it raises. */
module Fields {
  import opened Wrappers
  import opened Exceptions
  import opened Text
  import opened Dates
  import opened DateText

  const PhoneError := "Phone number must be 10 digits."
  const EmailError := "Invalid email address."
  const AddressError := "Address cannot be empty."
  const BirthdayError := "Invalid date format. Use DD.MM.YYYY"

  /** A phone number as `Phone` stores it. */
  predicate IsPhone(v: string) {
    |v| == 10 && AllDigits(v)
  }

  /** `Phone(v)`: rejects unless `v.isdigit()` and `len(v) == 10`. */
  function NewPhone(v: string): (r: Result<string, Exception>)
    ensures r.Success? <==> |v| == 10 && forall i :: 0 <= i < |v| ==> '0' <= v[i] <= '9'
    ensures r.Success? ==> r.value == v
    ensures r.Failure? ==> r.error == ValueError(PhoneError)
  {
    var isDigit := |v| > 0 && AllDigits(v);
    if !isDigit || |v| != 10 then Failure(ValueError(PhoneError)) else Success(v)
  }

  /** An e-mail address as `Email` stores it. */
  predicate IsEmail(v: string) {
    Contains(v, "@") && Contains(v, ".")
  }

  /** `Email(v)`: rejects unless both `@` and `.` occur somewhere in `v`. */
  function NewEmail(v: string): (r: Result<string, Exception>)
    ensures r.Success? <==> '@' in v && '.' in v
    ensures r.Success? ==> r.value == v
    ensures r.Failure? ==> r.error == ValueError(EmailError)
  {
    ContainsChar(v, '@');
    ContainsChar(v, '.');
    if !Contains(v, "@") || !Contains(v, ".") then Failure(ValueError(EmailError))
    else Success(v)
  }

  /** Containing the one-character string `[c]` is containing `c`. */
  lemma ContainsChar(s: string, c: char)
    ensures Contains(s, [c]) <==> c in s
  {
    if c in s {
      var i :| 0 <= i < |s| && s[i] == c;
      assert OccursAt(s, [c], i);
    }
    if Contains(s, [c]) {
      var i: nat :| i <= |s| && OccursAt(s, [c], i);
      assert s[i..i + 1][0] == s[i];
    }
  }

  /** An address as `Address` stores it. */
  predicate IsAddress(v: string) {
    v != [] && !IsSpace(v[0]) && !IsSpace(v[|v| - 1])
  }

  /** `Address(v)`: stores `v.strip()`, and rejects when that is empty, that
      is when `v` holds nothing but whitespace. */
  function NewAddress(v: string): (r: Result<string, Exception>)
    ensures r.Success? <==> exists i :: 0 <= i < |v| && !IsSpace(v[i])
    ensures r.Success? ==> r.value == Strip(v) && IsAddress(r.value)
    ensures r.Failure? ==> r.error == ValueError(AddressError)
  {
    if Strip(v) == [] then Failure(ValueError(AddressError)) else Success(Strip(v))
  }

  /** `Birthday(v)`: the date `strptime(v, "%d.%m.%Y")` parses, or the
      program's own ValueError in place of strptime's. */
  function NewBirthday(v: string): (r: Result<Date, Exception>)
    ensures r.Success? ==> Valid(r.value)
    ensures r.Failure? ==> r.error == ValueError(BirthdayError)
    ensures r.Success? <==> exists i: nat, j: nat :: DotSplit(v, i, j) && Valid(SplitDate(v, i, j))
    ensures forall i: nat, j: nat :: DotSplit(v, i, j) && Valid(SplitDate(v, i, j)) ==>
              r == Success(SplitDate(v, i, j))
    ensures ZeroPadded(v) ==> (r.Success? <==> Valid(NamedDate(v)))
    ensures ZeroPadded(v) && r.Success? ==> r.value == NamedDate(v)
  {
    match ParseDayMonthYear(v)
    case None => Failure(ValueError(BirthdayError))
    case Some(d) => Success(d)
  }

  /** `str(birthday)`: the date as `DD.MM.YYYY`, zero-padded, in the one
      form `strptime` reads back as the same date. */
  function BirthdayText(d: Date): (t: string)
    requires Valid(d)
    ensures ZeroPadded(t) && ParseDayMonthYear(t) == Some(d)
  {
    FormatThenParse(d);
    FormatDayMonthYear(d)
  }

  /** A zero-padded `DD.MM.YYYY` birthday is displayed exactly as it was
      entered, and a displayed birthday reads back as the same date. */
  lemma BirthdayRoundTrip(v: string, d: Date)
    requires Valid(d)
    ensures ZeroPadded(v) && NewBirthday(v).Success? ==> BirthdayText(NewBirthday(v).value) == v
    ensures NewBirthday(BirthdayText(d)) == Success(d)
  {
    if ZeroPadded(v) && NewBirthday(v).Success? {
      ParseThenFormat(v);
    }
    FormatThenParse(d);
  }

  /** `Birthday("31.02.2001")` raises. */
  lemma ImpossibleBirthday()
    ensures NewBirthday("31.02.2001") == Failure(ValueError(BirthdayError))
  {
    ImpossibleDateRejected();
  }
}

=== FILE: handlers.dfy ===
/** The command handlers of main.py that change the address book or the
    notebook, each wrapped in `input_error`. A handler takes the command's
    argument words and the store and gives the store afterwards together
    with the reply line. Python mutates the store in place, also when the
    handler then raises; `input_error` turns the exceptions it catches into
    the reply. */
module Handlers {
  import opened Wrappers
  import opened Exceptions
  import opened Text
  import Dates
  import Fields
  import Records
  import OrderedMap
  import AB = AddressBook
  import Notes
  import Seqs
  import DateText

  const ContactNotFound := "Contact not found."
  const NotEnoughParameters := "Not enough parameters."
  const NoNoteText := "Please provide a note text."
  const NoteNotFound := "Note ID not found."

  /** `input_error`: a KeyError, ValueError or IndexError becomes the reply
      line; any other exception passes through. */
  function InputError(err: Exception): (r: Result<string, Exception>)
    ensures r.Failure? <==> err.OverflowError?
    ensures r.Failure? ==> r.error == err
    ensures err.KeyError? ==> r == Success(ContactNotFound)
    ensures err.IndexError? ==> r == Success(NotEnoughParameters)
    ensures err.ValueError? ==> r == Success(err.message)
  {
    match err
    case KeyError => Success(ContactNotFound)
    case ValueError(m) => Success(m)
    case IndexError => Success(NotEnoughParameters)
    case OverflowError(_) => Failure(err)
  }

  /** The handler raised `err` with the store in state `s`. */
  function Raise<S>(s: S, err: Exception): Effect<S, string> {
    Effect(s, InputError(err))
  }

  /** The ValueError of `a, b, ... = args` with `expected` names on the
      left and `got` values on the right: too few values are reported with
      both counts, too many with the expected count only. */
  function UnpackError(expected: nat, got: nat): (e: Exception)
    requires got != expected
    ensures e.ValueError?
    ensures got < expected <==> OccursAt(e.message, NotEnoughValues, 0)
    ensures got > expected <==> OccursAt(e.message, TooManyValues, 0)
    ensures Contains(e.message, "expected " + NatToString(expected))
    ensures got < expected ==> Contains(e.message, "got " + NatToString(got))
  {
    var exp := "expected " + NatToString(expected);
    if got < expected then
      var m := NotEnoughValues + " (" + exp + ", " + ("got " + NatToString(got)) + ")";
      Assembled(NotEnoughValues, " (", exp, ", ", "got " + NatToString(got), ")");
      assert m[0] == NotEnoughValues[0] != TooManyValues[0];
      ValueError(m)
    else
      var m := TooManyValues + " (" + exp + ")";
      Framed(TooManyValues, " (", exp, ")");
      assert m[0] == TooManyValues[0] != NotEnoughValues[0];
      ValueError(m)
  }

  const NotEnoughValues := "not enough values to unpack"
  const TooManyValues := "too many values to unpack"

  /** The ValueError of `name, phone, *_ = args` with fewer than two
      values. */
  function UnpackAtLeastError(got: nat): (e: Exception)
    ensures e.ValueError? && OccursAt(e.message, NotEnoughValues, 0)
    ensures Contains(e.message, "expected at least 2")
    ensures Contains(e.message, "got " + NatToString(got))
  {
    Assembled(NotEnoughValues, " (", "expected at least 2", ", ", "got " + NatToString(got), ")");
    ValueError(NotEnoughValues + " (" + "expected at least 2" + ", " + ("got " + NatToString(got)) + ")")
  }

  /** The record `find(name)` returns, or the fresh `Record(name)` that
      `add_contact` creates when there is none. */
  function RecordOrNew(book: AB.Book, name: string): (r: Records.Record)
    requires AB.BookValid(book)
    ensures r.name == name && Records.WellFormed(r)
    ensures AB.Find(book, name).Some? ==> r == AB.Find(book, name).value
    ensures AB.Find(book, name).None? ==> r == Records.NewRecord(name)
  {
    match AB.Find(book, name)
    case Some(r) => r
    case None => Records.NewRecord(name)
  }

  /** `add_contact`. The contact is created and stored before the phone is
      validated, so an invalid phone for a new name leaves a contact with
      no phones behind; an empty phone word is skipped. */
  function AddContact(args: seq<string>, book: AB.Book): (e: Effect<AB.Book, string>)
    requires AB.BookValid(book)
    ensures AB.BookValid(e.state)
    ensures |args| >= 2 ==>
              e.state.order == if args[0] in book.items then book.order else book.order + [args[0]]
    ensures e.result.Success?
    ensures |args| < 2 ==> e == Effect(book, Success(UnpackAtLeastError(|args|).message))
    ensures |args| >= 2 ==>
              && (forall n :: n != args[0] ==> AB.Find(e.state, n) == AB.Find(book, n))
              && var before := RecordOrNew(book, args[0]);
                 if args[1] != "" && !Fields.IsPhone(args[1]) then
                   && AB.Find(e.state, args[0]) == Some(before)
                   && e.result.value == Fields.PhoneError
                 else
                   && AB.Find(e.state, args[0]) ==
                        Some(if args[1] == "" then before
                             else before.(phones := before.phones + [args[1]]))
                   && e.result.value ==
                        (if AB.Find(book, args[0]).None? then "Contact added." else "Contact updated.")
  {
    if |args| < 2 then Raise(book, UnpackAtLeastError(|args|))
    else
      var name, phone := args[0], args[1];
      var record := RecordOrNew(book, name);
      var message := if AB.Find(book, name).None? then "Contact added." else "Contact updated.";
      var stored := AB.AddRecord(book, record);
      if phone == "" then Effect(stored, Success(message))
      else
        Records.SettersPreserveWellFormed(record, phone);
        match Records.AddPhone(record, phone)
        case Success(updated) => Effect(AB.AddRecord(stored, updated), Success(message))
        case Failure(err) => Raise(stored, err)
  }

  /** A new name with an invalid phone: the reply is the phone error, yet
      the contact now exists, with no phones. */
  lemma AddContactKeepsContactOnBadPhone(book: AB.Book, name: string, phone: string)
    requires AB.BookValid(book) && AB.Find(book, name).None?
    requires phone != "" && !Fields.IsPhone(phone)
    ensures AddContact([name, phone], book).result == Success(Fields.PhoneError)
    ensures AB.Find(AddContact([name, phone], book).state, name) == Some(Records.NewRecord(name))
  {
  }

  /** `name, x = args` followed by `book.find(name)`, raising KeyError
      when the name is unknown. */
  function Target(args: seq<string>, book: AB.Book): (r: Result<Records.Record, Exception>)
    requires AB.BookValid(book)
    ensures r.Success? <==> |args| == 2 && AB.Find(book, args[0]).Some?
    ensures r.Success? ==> r.value == AB.Find(book, args[0]).value
    ensures r.Success? ==> r.value.name == args[0] && Records.WellFormed(r.value)
    ensures |args| != 2 ==> r == Failure(UnpackError(2, |args|))
    ensures |args| == 2 && AB.Find(book, args[0]).None? ==> r == Failure(KeyError)
  {
    if |args| != 2 then Failure(UnpackError(2, |args|))
    else
      match AB.Find(book, args[0])
      case None => Failure(KeyError)
      case Some(r) => Success(r)
  }

  /** `change_contact`: `edit_phone` on the named contact. The record is
      changed in place, so when the new number is invalid the old one is
      already gone. */
  function ChangeContact(args: seq<string>, book: AB.Book): (e: Effect<AB.Book, string>)
    requires AB.BookValid(book)
    ensures AB.BookValid(e.state)
    ensures e.state.order == book.order
    ensures e.result.Success?
    ensures |args| != 3 ==> e == Effect(book, Success(UnpackError(3, |args|).message))
    ensures |args| == 3 && AB.Find(book, args[0]).None? ==> e == Effect(book, Success(ContactNotFound))
    ensures |args| == 3 && AB.Find(book, args[0]).Some? ==>
              var r := AB.Find(book, args[0]).value;
              && (forall n :: n != args[0] ==> AB.Find(e.state, n) == AB.Find(book, n))
              && (args[1] !in r.phones ==>
                    AB.Find(e.state, args[0]) == Some(r) && e.result.value == Records.PhoneNotFound)
              && forall i: nat :: Seqs.FirstIndex(r.phones, args[1], i) ==>
                   var kept := r.phones[..i] + r.phones[i + 1..];
                   if Fields.IsPhone(args[2]) then
                     AB.Find(e.state, args[0]) == Some(r.(phones := kept + [args[2]]))
                     && e.result.value == "Phone updated."
                   else
                     AB.Find(e.state, args[0]) == Some(r.(phones := kept))
                     && e.result.value == Fields.PhoneError
  {
    if |args| != 3 then Raise(book, UnpackError(3, |args|))
    else
      var name, oldPhone, newPhone := args[0], args[1], args[2];
      match AB.Find(book, name)
      case None => Raise(book, KeyError)
      case Some(record) =>
        Records.EditPreservesWellFormed(record, oldPhone, newPhone);
        var edit := Records.EditPhone(record, oldPhone, newPhone);
        var stored := AB.AddRecord(book, edit.state);
        match edit.result
        case Success(_) => Effect(stored, Success("Phone updated."))
        case Failure(err) => Raise(stored, err)
  }

  /** A field command on the found contact `r`, where `outcome` is what the
      record method it calls gave: success stores the changed record and
      replies `done`; an exception leaves the record as it was. */
  function Apply(book: AB.Book, r: Records.Record, outcome: Result<Records.Record, Exception>, done: string)
    : (e: Effect<AB.Book, string>)
    requires AB.BookValid(book) && AB.Find(book, r.name) == Some(r)
    requires outcome.Success? ==> outcome.value.name == r.name && Records.WellFormed(outcome.value)
    ensures AB.BookValid(e.state)
    ensures outcome.Success? ==> e == Effect(AB.AddRecord(book, outcome.value), Success(done))
    ensures outcome.Failure? ==> e == Raise(book, outcome.error)
  {
    match outcome
    case Success(updated) => Effect(AB.AddRecord(book, updated), Success(done))
    case Failure(err) => Raise(book, err)
  }

  /** `add_phone` (the command): appends a valid phone to the named contact. */
  function AddPhone(args: seq<string>, book: AB.Book): (e: Effect<AB.Book, string>)
    requires AB.BookValid(book)
    ensures AB.BookValid(e.state)
    ensures e.state.order == book.order
    ensures e.result.Success?
    ensures Target(args, book).Failure? ==> e == Effect(book, Success(InputError(Target(args, book).error).value))
    ensures Target(args, book).Success? ==>
              var r := Target(args, book).value;
              if Fields.IsPhone(args[1]) then
                e == Effect(AB.AddRecord(book, r.(phones := r.phones + [args[1]])), Success("Phone added."))
              else e == Effect(book, Success(Fields.PhoneError))
  {
    match Target(args, book)
    case Failure(err) => Raise(book, err)
    case Success(r) =>
      Records.SettersPreserveWellFormed(r, args[1]);
      Apply(book, r, Records.AddPhone(r, args[1]), "Phone added.")
  }

  /** `remove_phone` (the command): drops the first equal phone of the
      named contact; replies the same whether or not there was one. */
  function RemovePhone(args: seq<string>, book: AB.Book): (e: Effect<AB.Book, string>)
    requires AB.BookValid(book)
    ensures AB.BookValid(e.state)
    ensures e.state.order == book.order
    ensures e.result.Success?
    ensures Target(args, book).Failure? ==> e == Effect(book, Success(InputError(Target(args, book).error).value))
    ensures Target(args, book).Success? ==>
              var r := Target(args, book).value;
              && e.result.value == "Phone removed."
              && (args[1] !in r.phones ==> AB.Find(e.state, args[0]) == Some(r))
              && forall i: nat :: Seqs.FirstIndex(r.phones, args[1], i) ==>
                   AB.Find(e.state, args[0]) == Some(r.(phones := r.phones[..i] + r.phones[i + 1..]))
    ensures forall n :: |args| == 2 && n != args[0] ==> AB.Find(e.state, n) == AB.Find(book, n)
  {
    match Target(args, book)
    case Failure(err) => Raise(book, err)
    case Success(r) =>
      Records.RemovePreservesWellFormed(r, args[1]);
      Apply(book, r, Success(Records.RemovePhone(r, args[1])), "Phone removed.")
  }

  /** `add_birthday` (the command): sets the parsed birthday of the named
      contact. */
  function AddBirthday(args: seq<string>, book: AB.Book): (e: Effect<AB.Book, string>)
    requires AB.BookValid(book)
    ensures AB.BookValid(e.state)
    ensures e.state.order == book.order
    ensures e.result.Success?
    ensures Target(args, book).Failure? ==> e == Effect(book, Success(InputError(Target(args, book).error).value))
    ensures Target(args, book).Success? ==>
              var r := Target(args, book).value;
              match Fields.NewBirthday(args[1])
              case Success(d) =>
                e == Effect(AB.AddRecord(book, r.(birthday := Some(d))), Success("Birthday added."))
              case Failure(_) => e == Effect(book, Success(Fields.BirthdayError))
  {
    match Target(args, book)
    case Failure(err) => Raise(book, err)
    case Success(r) =>
      Records.SettersPreserveWellFormed(r, args[1]);
      Apply(book, r, Records.AddBirthday(r, args[1]), "Birthday added.")
  }

  /** `add_email` (the command): sets the e-mail of the named contact. */
  function AddEmail(args: seq<string>, book: AB.Book): (e: Effect<AB.Book, string>)
    requires AB.BookValid(book)
    ensures AB.BookValid(e.state)
    ensures e.state.order == book.order
    ensures e.result.Success?
    ensures Target(args, book).Failure? ==> e == Effect(book, Success(InputError(Target(args, book).error).value))
    ensures Target(args, book).Success? ==>
              var r := Target(args, book).value;
              if '@' in args[1] && '.' in args[1] then
                e == Effect(AB.AddRecord(book, r.(email := Some(args[1]))), Success("Email added."))
              else e == Effect(book, Success(Fields.EmailError))
  {
    match Target(args, book)
    case Failure(err) => Raise(book, err)
    case Success(r) =>
      Records.SettersPreserveWellFormed(r, args[1]);
      Apply(book, r, Records.AddEmail(r, args[1]), "Email added.")
  }

  /** Python's `sep.join(parts)`: the parts in order with `sep` between
      each two neighbours. */
  function Join(sep: string, parts: seq<string>): (r: string)
    ensures parts == [] ==> r == ""
    ensures |r| == TotalLength(parts) + if parts == [] then 0 else |sep| * (|parts| - 1)
    ensures parts != [] ==> r[..|parts[0]|] == parts[0]
  {
    if parts == [] then ""
    else if |parts| == 1 then parts[0]
    else parts[0] + sep + Join(sep, parts[1..])
  }

  /** The combined length of the parts. */
  function TotalLength(parts: seq<string>): nat {
    if parts == [] then 0 else |parts[0]| + TotalLength(parts[1..])
  }

  /** `join` built left to right, as CPython does: appending a part adds
      the separator and the part at the end. */
  lemma {:induction false} JoinAppend(sep: string, parts: seq<string>, p: string)
    requires parts != []
    ensures Join(sep, parts + [p]) == Join(sep, parts) + sep + p
    decreases |parts|
  {
    if |parts| > 1 {
      assert (parts + [p])[1..] == parts[1..] + [p];
      JoinAppend(sep, parts[1..], p);
    }
  }

  /** `add_address` (the command): every word after the name, joined by
      single spaces, becomes the stripped address of the named contact.
      Unlike the other field commands it takes any number of words. */
  function AddAddress(args: seq<string>, book: AB.Book): (e: Effect<AB.Book, string>)
    requires AB.BookValid(book)
    ensures AB.BookValid(e.state)
    ensures e.state.order == book.order
    ensures e.result.Success?
    ensures args == [] ==> e == Effect(book, Success(NotEnoughParameters))
    ensures args != [] && AB.Find(book, args[0]).None? ==> e == Effect(book, Success(ContactNotFound))
    ensures args != [] && AB.Find(book, args[0]).Some? ==>
              var r := AB.Find(book, args[0]).value;
              var text := Join(" ", args[1..]);
              if AllSpace(text) then e == Effect(book, Success(Fields.AddressError))
              else e == Effect(AB.AddRecord(book, r.(address := Some(Strip(text)))), Success("Address added."))
  {
    if args == [] then Raise(book, IndexError)
    else
      var name, address := args[0], Join(" ", args[1..]);
      match AB.Find(book, name)
      case None => Raise(book, KeyError)
      case Some(r) =>
        Records.SettersPreserveWellFormed(r, address);
        Apply(book, r, Records.AddAddress(r, address), "Address added.")
  }

  /** With only a name, `add_address` joins nothing and is refused. */
  lemma AddAddressNeedsText(book: AB.Book, name: string)
    requires AB.BookValid(book) && AB.Find(book, name).Some?
    ensures AddAddress([name], book) == Effect(book, Success(Fields.AddressError))
  {
    assert [name][1..] == [];
  }

  // --------------------------------------------------------------- notes

  /** `add_note`: the first word is the text and the rest are the tags; the
      note is created at `now`, the instant `datetime.now()` returns. */
  function AddNote(args: seq<string>, notebook: Notes.Notebook, now: Dates.Instant)
    : (e: Effect<Notes.Notebook, string>)
    requires Notes.NotebookValid(notebook) && Dates.ValidInstant(now)
    ensures Notes.NotebookValid(e.state)
    ensures args != [] ==>
              var key := DateText.InstantKey(now);
              e.state.order == if key in notebook.items then notebook.order else notebook.order + [key]
    ensures args == [] ==> e == Effect(notebook, Success(NoNoteText))
    ensures args != [] ==>
              && e.result == Success("Note added.")
              && OrderedMap.Get(e.state, DateText.InstantKey(now)) == Some(Notes.Note(args[0], args[1..], now))
              && forall k :: k != DateText.InstantKey(now) ==> OrderedMap.Get(e.state, k) == OrderedMap.Get(notebook, k)
  {
    if args == [] then Raise(notebook, ValueError(NoNoteText))
    else Effect(Notes.AddNote(notebook, Notes.Note(args[0], args[1..], now)), Success("Note added."))
  }

  /** `delete_note`: removes the note with the given key, replying whether
      there was one. */
  function DeleteNote(args: seq<string>, notebook: Notes.Notebook): (e: Effect<Notes.Notebook, string>)
    requires Notes.NotebookValid(notebook)
    ensures Notes.NotebookValid(e.state)
    ensures args != [] ==> e.state.order == Seqs.RemoveFirst(notebook.order, args[0])
    ensures args == [] ==> e == Effect(notebook, Success(NotEnoughParameters))
    ensures args != [] && args[0] !in notebook.items ==> e == Effect(notebook, Success(NoteNotFound))
    ensures args != [] && args[0] in notebook.items ==>
              && e.result == Success("Note " + args[0] + " deleted.")
              && OrderedMap.Get(e.state, args[0]) == None
              && forall k :: k != args[0] ==> OrderedMap.Get(e.state, k) == OrderedMap.Get(notebook, k)
  {
    if args == [] then Raise(notebook, IndexError)
    else if args[0] in notebook.items then
      Effect(Notes.DeleteNote(notebook, args[0]), Success("Note " + args[0] + " deleted."))
    else Effect(notebook, Success(NoteNotFound))
  }
}

=== FILE: notes.dfy ===
/** main.py's `Note` and `Notebook`. A note is a text with a list of tags
    and the instant it was created; the notebook is a dictionary keyed by
    that instant written as `%Y%m%d%H%M%S`. The clock `datetime.now()` reads
    is a parameter: a note is built from the instant it is given. */
module Notes {
  import opened Wrappers
  import opened Dates
  import opened Text
  import DateText
  import OrderedMap
  import Seqs

  /** `Note(text, tags)` created at `created`. The constructor stores the
      tag list as given (`tags if tags else []`), duplicates included. */
  datatype Note = Note(text: string, tags: seq<string>, created: Instant)

  /** `edit`: replaces the text; tags and creation instant stay. */
  function Edit(n: Note, newText: string): (r: Note)
    ensures r.text == newText
    ensures r.tags == n.tags && r.created == n.created
  {
    n.(text := newText)
  }

  /** `add_tag`: appends the tag unless the note already carries it. */
  function AddTag(n: Note, tag: string): (r: Note)
    ensures tag in r.tags
    ensures tag in n.tags ==> r == n
    ensures tag !in n.tags ==> r.tags == n.tags + [tag]
    ensures Seqs.NoDup(n.tags) ==> Seqs.NoDup(r.tags)
    ensures r.text == n.text && r.created == n.created
  {
    if tag in n.tags then n
    else
      Seqs.AppendNoDup(n.tags, tag);
      n.(tags := n.tags + [tag])
  }

  /** `remove_tag`: drops the first occurrence of the tag; a tag the note
      does not carry is a no-op. */
  function RemoveTag(n: Note, tag: string): (r: Note)
    ensures tag !in n.tags ==> r == n
    ensures multiset(r.tags) == multiset(n.tags) - multiset{tag}
    ensures forall i: nat :: Seqs.FirstIndex(n.tags, tag, i) ==>
              r.tags == n.tags[..i] + n.tags[i + 1..]
    ensures Seqs.NoDup(n.tags) ==> Seqs.NoDup(r.tags) && tag !in r.tags
    ensures r.text == n.text && r.created == n.created
  {
    if tag in n.tags then
      Seqs.RemoveFirstNoDup(n.tags, tag);
      n.(tags := Seqs.RemoveFirst(n.tags, tag))
    else n
  }

  /** The constructor does not remove duplicates, so a note can carry a tag
      twice; `remove_tag` then removes one copy and the tag stays. */
  lemma RemoveTagLeavesDuplicate(t: Instant)
    ensures !Seqs.NoDup(Note("x", ["a", "a"], t).tags)
    ensures "a" in RemoveTag(Note("x", ["a", "a"], t), "a").tags
  {
    var n := Note("x", ["a", "a"], t);
    assert Seqs.FirstIndex(n.tags, "a", 0);
    assert RemoveTag(n, "a").tags == ["a"];
  }

  // ------------------------------------------------------------ notebook

  type Notebook = OrderedMap.Dict<Note>

  /** `note.created.strftime("%Y%m%d%H%M%S")`. */
  function NoteKey(n: Note): (k: string)
    requires ValidInstant(n.created)
    ensures |k| == 14 && AllDigits(k)
  {
    DateText.InstantKey(n.created)
  }

  /** Every note is stored under the key of its own creation instant. */
  ghost predicate NotebookValid(b: Notebook) {
    && OrderedMap.Valid(b)
    && forall k :: k in b.items ==>
         ValidInstant(b.items[k].created) && k == NoteKey(b.items[k])
  }

  /** `add_note`: stores the note under its key, replacing a note already
      stored there. */
  function AddNote(b: Notebook, n: Note): (res: Notebook)
    requires OrderedMap.Valid(b) && ValidInstant(n.created)
    ensures OrderedMap.Valid(res)
    ensures OrderedMap.Get(res, NoteKey(n)) == Some(n)
    ensures forall k :: k != NoteKey(n) ==> OrderedMap.Get(res, k) == OrderedMap.Get(b, k)
    ensures NoteKey(n) in b.items ==> res.order == b.order
    ensures NoteKey(n) !in b.items ==> res.order == b.order + [NoteKey(n)]
    ensures NotebookValid(b) ==> NotebookValid(res)
  {
    PutKeepsNotebookValid(b, NoteKey(n), n);
    OrderedMap.Put(b, NoteKey(n), n)
  }

  lemma PutKeepsNotebookValid(b: Notebook, k: string, n: Note)
    requires OrderedMap.Valid(b) && ValidInstant(n.created) && k == NoteKey(n)
    ensures NotebookValid(b) ==> NotebookValid(OrderedMap.Put(b, k, n))
  {
    if NotebookValid(b) {
      var res := OrderedMap.Put(b, k, n);
      forall j | j in res.items ensures ValidInstant(res.items[j].created) && j == NoteKey(res.items[j]) {
        if j != k {
          assert OrderedMap.Get(res, j) == OrderedMap.Get(b, j);
        }
      }
    }
  }

  /** A note created in the same second as a stored one takes that note's
      place (and its position) and the stored note is lost; a note created
      in a second no stored note shares is added at the end. */
  lemma AddNoteCollision(b: Notebook, n: Note)
    requires NotebookValid(b) && ValidInstant(n.created)
    ensures forall k :: k in b.items && DateText.SameSecond(b.items[k].created, n.created) ==>
              AddNote(b, n).items[k] == n && AddNote(b, n).order == b.order
    ensures (forall k :: k in b.items ==> !DateText.SameSecond(b.items[k].created, n.created)) ==>
              && AddNote(b, n).order == b.order + [NoteKey(n)]
              && forall k :: k in b.items ==> AddNote(b, n).items[k] == b.items[k]
  {
    forall k | k in b.items
      ensures k == NoteKey(n) <==> DateText.SameSecond(b.items[k].created, n.created)
    {
      DateText.InstantKeyCollision(b.items[k].created, n.created);
    }
  }

  /** `delete_note`: removes the note stored under `id`; a silent no-op
      when there is none. */
  function DeleteNote(b: Notebook, id: string): (res: Notebook)
    requires OrderedMap.Valid(b)
    ensures OrderedMap.Valid(res)
    ensures OrderedMap.Get(res, id) == None
    ensures forall k :: k != id ==> OrderedMap.Get(res, k) == OrderedMap.Get(b, k)
    ensures id !in b.items ==> res == b
    ensures res.order == Seqs.RemoveFirst(b.order, id)
    ensures NotebookValid(b) ==> NotebookValid(res)
  {
    OrderedMap.Remove(b, id)
  }

  /** `edit_note`: replaces the text of the note stored under `id`, keeping
      its place; a silent no-op when there is none. */
  function EditNote(b: Notebook, id: string, newText: string): (res: Notebook)
    requires OrderedMap.Valid(b)
    ensures OrderedMap.Valid(res)
    ensures id !in b.items ==> res == b
    ensures id in b.items ==>
              && res.order == b.order
              && OrderedMap.Get(res, id) == Some(b.items[id].(text := newText))
    ensures forall k :: k != id ==> OrderedMap.Get(res, k) == OrderedMap.Get(b, k)
    ensures NotebookValid(b) ==> NotebookValid(res)
  {
    if id in b.items then
      EditKeepsNotebookValid(b, id, newText);
      OrderedMap.Put(b, id, Edit(b.items[id], newText))
    else b
  }

  lemma EditKeepsNotebookValid(b: Notebook, id: string, newText: string)
    requires OrderedMap.Valid(b) && id in b.items
    ensures NotebookValid(b) ==> NotebookValid(OrderedMap.Put(b, id, Edit(b.items[id], newText)))
  {
    if NotebookValid(b) {
      PutKeepsNotebookValid(b, id, Edit(b.items[id], newText));
    }
  }

  // ------------------------------------------------------------- queries

  /** Some tag of the note contains `keyword`, ignoring case. */
  predicate TaggedWith(n: Note, keyword: string) {
    exists i :: 0 <= i < |n.tags| && ContainsIgnoringCase(n.tags[i], keyword)
  }

  /** The text of the note contains `keyword`, ignoring case. */
  predicate Mentions(n: Note, keyword: string) {
    ContainsIgnoringCase(n.text, keyword)
  }

  /** `find_by_tag`: the stored notes some tag of which contains the
      keyword case-insensitively, in the notebook's order. */
  function FindByTag(b: Notebook, keyword: string): (r: seq<Note>)
    requires OrderedMap.Valid(b)
    ensures forall i :: 0 <= i < |r| ==> r[i] in OrderedMap.Values(b) && TaggedWith(r[i], keyword)
    ensures forall i :: 0 <= i < |OrderedMap.Values(b)| && TaggedWith(OrderedMap.Values(b)[i], keyword) ==>
              OrderedMap.Values(b)[i] in r
    ensures forall n :: multiset(r)[n] ==
              if TaggedWith(n, keyword) then multiset(OrderedMap.Values(b))[n] else 0
    ensures Seqs.IsSubsequence(r, OrderedMap.Values(b))
  {
    Seqs.Filter(OrderedMap.Values(b), n => TaggedWith(n, keyword))
  }

  /** `search_text`: the stored notes whose text contains the keyword
      case-insensitively, in the notebook's order. */
  function SearchText(b: Notebook, keyword: string): (r: seq<Note>)
    requires OrderedMap.Valid(b)
    ensures forall i :: 0 <= i < |r| ==> r[i] in OrderedMap.Values(b) && Mentions(r[i], keyword)
    ensures forall i :: 0 <= i < |OrderedMap.Values(b)| && Mentions(OrderedMap.Values(b)[i], keyword) ==>
              OrderedMap.Values(b)[i] in r
    ensures forall n :: multiset(r)[n] ==
              if Mentions(n, keyword) then multiset(OrderedMap.Values(b))[n] else 0
    ensures Seqs.IsSubsequence(r, OrderedMap.Values(b))
  {
    Seqs.Filter(OrderedMap.Values(b), n => Mentions(n, keyword))
  }

  /** The empty keyword is contained in every string: `find_by_tag("")`
      returns exactly the notes that have a tag, and `search_text("")`
      returns every note. */
  lemma EmptyKeyword(b: Notebook)
    requires OrderedMap.Valid(b)
    ensures forall n :: n in OrderedMap.Values(b) ==> (n in FindByTag(b, "") <==> n.tags != [])
    ensures forall n :: n in OrderedMap.Values(b) ==> n in SearchText(b, "")
  {
    var vs := OrderedMap.Values(b);
    assert Lower("") == "";
    forall n | n in vs ensures Mentions(n, "") && (TaggedWith(n, "") <==> n.tags != []) {
      EmptyIsContained(Lower(n.text));
      if n.tags != [] {
        EmptyIsContained(Lower(n.tags[0]));
      }
    }
  }

  /** Case does not matter: a note tagged `Work` is found by `wORK`. */
  lemma TagSearchIgnoresCase(t: Instant)
    ensures TaggedWith(Note("x", ["Work"], t), "wORK")
  {
    var n := Note("x", ["Work"], t);
    assert Lower("Work") == "work" && Lower("wORK") == "work";
    assert OccursAt("work", "work", 0);
    assert ContainsIgnoringCase(n.tags[0], "wORK");
  }

  /** `get_all_notes`: the (key, note) pairs in the notebook's order. */
  function AllNotes(b: Notebook): (r: seq<(string, Note)>)
    requires OrderedMap.Valid(b)
    ensures |r| == |b.order|
    ensures forall i :: 0 <= i < |r| ==>
              r[i].0 == b.order[i] && OrderedMap.Get(b, r[i].0) == Some(r[i].1)
  {
    seq(|b.order|, i requires 0 <= i < |b.order| => (b.order[i], b.items[b.order[i]]))
  }
}

=== FILE: ordered_map.dfy ===
/** A Python `dict`: a finite map that also remembers the order in which its
    keys were first inserted. Assigning to a present key keeps its place;
    deleting a key drops it from the order. Both address books and the
    notebook are dictionaries of this kind keyed by strings, and their query
    results follow this order. */
module OrderedMap {
  import opened Wrappers
  import Seqs

  datatype Dict<V> = Dict(order: seq<string>, items: map<string, V>)

  /** Every key occurs once in the order, and the order lists exactly the
      keys of the map. */
  ghost predicate Valid<V>(d: Dict<V>) {
    && Seqs.NoDup(d.order)
    && (forall k :: k in d.items <==> k in d.order)
  }

  /** `d.get(k)`. */
  function Get<V>(d: Dict<V>, k: string): Option<V> {
    if k in d.items then Some(d.items[k]) else None
  }

  /** `d[k] = v`: the key maps to `v`, every other key keeps its value, and
      a new key goes to the end of the order. */
  function Put<V>(d: Dict<V>, k: string, v: V): (r: Dict<V>)
    requires Valid(d)
    ensures Valid(r)
    ensures Get(r, k) == Some(v)
    ensures forall k' :: k' != k ==> Get(r, k') == Get(d, k')
    ensures k in d.items ==> r.order == d.order
    ensures k !in d.items ==> r.order == d.order + [k]
  {
    if k in d.items then Dict(d.order, d.items[k := v])
    else
      Seqs.AppendNoDup(d.order, k);
      Dict(d.order + [k], d.items[k := v])
  }

  /** `del d[k]` when `k in d`, and nothing otherwise: the key is gone,
      every other key keeps its value and its place in the order. */
  function Remove<V>(d: Dict<V>, k: string): (r: Dict<V>)
    requires Valid(d)
    ensures Valid(r)
    ensures Get(r, k) == None
    ensures forall k' :: k' != k ==> Get(r, k') == Get(d, k')
    ensures r.order == Seqs.RemoveFirst(d.order, k)
    ensures k !in d.items ==> r == d
  {
    RemoveValid(d, k);
    Dict(Seqs.RemoveFirst(d.order, k), d.items - {k})
  }

  lemma RemoveValid<V>(d: Dict<V>, k: string)
    requires Valid(d)
    ensures Valid(Dict(Seqs.RemoveFirst(d.order, k), d.items - {k}))
  {
    Seqs.RemoveFirstNoDup(d.order, k);
    var order := Seqs.RemoveFirst(d.order, k);
    forall k' | k' != k ensures k' in order <==> k' in d.order {
      assert k' in multiset(order) <==> k' in multiset(d.order);
    }
  }

  /** `list(d.values())`: the values in key order. */
  function Values<V>(d: Dict<V>): (vs: seq<V>)
    requires Valid(d)
    ensures |vs| == |d.order|
    ensures forall i :: 0 <= i < |d.order| ==> vs[i] == d.items[d.order[i]]
  {
    seq(|d.order|, i requires 0 <= i < |d.order| => d.items[d.order[i]])
  }

  /** A value sits at some position of `Values(d)` exactly when it is
      stored under some key. */
  lemma InValues<V>(d: Dict<V>, v: V)
    requires Valid(d)
    ensures v in Values(d) <==> exists k :: k in d.items && d.items[k] == v
  {
    var vs := Values(d);
    if exists k :: k in d.items && d.items[k] == v {
      var k :| k in d.items && d.items[k] == v;
      var i :| 0 <= i < |d.order| && d.order[i] == k;
      assert vs[i] == v;
    }
  }
}

=== FILE: records.dfy ===
/** main.py's `Record`: a contact name, a list of phone numbers searched by
    value, and optional birthday, e-mail and address. Python mutates the
    record in place; here each operation returns the record after the call. */
module Records {
  import opened Wrappers
  import opened Exceptions
  import opened Dates
  import opened Fields
  import Seqs

  const PhoneNotFound := "Phone number not found."

  datatype Record = Record(
    name: string,
    phones: seq<string>,
    birthday: Option<Date>,
    email: Option<string>,
    address: Option<string>)

  /** `Record(name)`: no phones and no optional field set. */
  function NewRecord(name: string): (r: Record)
    ensures r.name == name && WellFormed(r)
    ensures r.phones == [] && r.birthday.None? && r.email.None? && r.address.None?
  {
    Record(name, [], None, None, None)
  }

  /** Every stored field passed its constructor's validation. */
  predicate WellFormed(r: Record) {
    && (forall i :: 0 <= i < |r.phones| ==> IsPhone(r.phones[i]))
    && (r.birthday.Some? ==> Valid(r.birthday.value))
    && (r.email.Some? ==> IsEmail(r.email.value))
    && (r.address.Some? ==> IsAddress(r.address.value))
  }

  /** `find_phone`: the position of the first phone equal to `v`. */
  function FindPhone(r: Record, v: string): (i: Option<nat>)
    ensures i.Some? ==> i.value < |r.phones| && r.phones[i.value] == v
    ensures i.Some? ==> forall j :: 0 <= j < i.value ==> r.phones[j] != v
    ensures i.None? <==> v !in r.phones
  {
    Seqs.IndexOf(r.phones, v)
  }

  /** `add_phone`: appends `v` if it is a valid phone, raises otherwise and
      leaves the record as it was. */
  function AddPhone(r: Record, v: string): (res: Result<Record, Exception>)
    ensures res.Success? <==> IsPhone(v)
    ensures res.Success? ==> res.value == r.(phones := r.phones + [v])
    ensures res.Failure? ==> res.error == ValueError(PhoneError)
  {
    var p :- NewPhone(v);
    Success(r.(phones := r.phones + [p]))
  }

  /** `remove_phone`: drops the first phone equal to `v`; nothing happens
      when there is none. */
  function RemovePhone(r: Record, v: string): (res: Record)
    ensures v !in r.phones ==> res == r
    ensures forall i: nat :: Seqs.FirstIndex(r.phones, v, i) ==>
              res == r.(phones := r.phones[..i] + r.phones[i + 1..])
    ensures multiset(res.phones) == multiset(r.phones) - multiset{v}
  {
    match FindPhone(r, v)
    case None => r
    case Some(_) => r.(phones := Seqs.RemoveFirst(r.phones, v))
  }

  /** `edit_phone`. When `oldNumber` is on the record, the first phone equal
      to it is removed BEFORE the new number is validated: an invalid new
      number raises with the old phone already gone, and a valid one is
      appended at the end instead of taking the old one's place. When
      `oldNumber` is not on the record nothing changes and a ValueError is
      raised. */
  function EditPhone(r: Record, oldNumber: string, newNumber: string): (e: Effect<Record, ()>)
    ensures oldNumber !in r.phones ==> e == Effect(r, Failure(ValueError(PhoneNotFound)))
    ensures forall i: nat :: Seqs.FirstIndex(r.phones, oldNumber, i) ==>
              var kept := r.phones[..i] + r.phones[i + 1..];
              if IsPhone(newNumber) then e == Effect(r.(phones := kept + [newNumber]), Success(()))
              else e == Effect(r.(phones := kept), Failure(ValueError(PhoneError)))
  {
    match FindPhone(r, oldNumber)
    case None => Effect(r, Failure(ValueError(PhoneNotFound)))
    case Some(_) =>
      var removed := r.(phones := Seqs.RemoveFirst(r.phones, oldNumber));
      match AddPhone(removed, newNumber)
      case Success(updated) => Effect(updated, Success(()))
      case Failure(err) => Effect(removed, Failure(err))
  }

  /** `add_birthday`: sets the birthday parsed from `DD.MM.YYYY`, or raises
      and leaves the record as it was. */
  function AddBirthday(r: Record, text: string): (res: Result<Record, Exception>)
    ensures res.Success? <==> NewBirthday(text).Success?
    ensures res.Success? ==> res.value == r.(birthday := Some(NewBirthday(text).value))
    ensures res.Failure? ==> res.error == ValueError(BirthdayError)
  {
    var d :- NewBirthday(text);
    Success(r.(birthday := Some(d)))
  }

  /** `add_email`. */
  function AddEmail(r: Record, text: string): (res: Result<Record, Exception>)
    ensures res.Success? <==> '@' in text && '.' in text
    ensures res.Success? ==> res.value == r.(email := Some(text))
    ensures res.Failure? ==> res.error == ValueError(EmailError)
  {
    var v :- NewEmail(text);
    Success(r.(email := Some(v)))
  }

  /** `add_address`: stores the stripped text. */
  function AddAddress(r: Record, text: string): (res: Result<Record, Exception>)
    ensures res.Success? <==> exists i :: 0 <= i < |text| && !Text.IsSpace(text[i])
    ensures res.Success? ==> res.value == r.(address := Some(Text.Strip(text)))
    ensures res.Failure? ==> res.error == ValueError(AddressError)
  {
    var v :- NewAddress(text);
    Success(r.(address := Some(v)))
  }

  /** Adding a phone or setting a field keeps the record well formed and
      its name unchanged. */
  lemma SettersPreserveWellFormed(r: Record, v: string)
    requires WellFormed(r)
    ensures AddPhone(r, v).Success? ==>
              WellFormed(AddPhone(r, v).value) && AddPhone(r, v).value.name == r.name
    ensures AddBirthday(r, v).Success? ==>
              WellFormed(AddBirthday(r, v).value) && AddBirthday(r, v).value.name == r.name
    ensures AddEmail(r, v).Success? ==>
              WellFormed(AddEmail(r, v).value) && AddEmail(r, v).value.name == r.name
    ensures AddAddress(r, v).Success? ==>
              WellFormed(AddAddress(r, v).value) && AddAddress(r, v).value.name == r.name
  {
    if AddEmail(r, v).Success? {
      ContainsChar(v, '@');
      ContainsChar(v, '.');
    }
  }

  /** Removing a phone keeps the record well formed: what remains was
      already on it. */
  lemma RemovePreservesWellFormed(r: Record, v: string)
    requires WellFormed(r)
    ensures WellFormed(RemovePhone(r, v)) && RemovePhone(r, v).name == r.name
  {
    var res := RemovePhone(r, v);
    forall i | 0 <= i < |res.phones| ensures IsPhone(res.phones[i]) {
      assert res.phones[i] in multiset(r.phones);
    }
  }

  /** Editing a phone keeps the record well formed whether it succeeds or
      raises half-way. */
  lemma EditPreservesWellFormed(r: Record, oldNumber: string, newNumber: string)
    requires WellFormed(r)
    ensures WellFormed(EditPhone(r, oldNumber, newNumber).state)
    ensures EditPhone(r, oldNumber, newNumber).state.name == r.name
  {
    RemovePreservesWellFormed(r, oldNumber);
    var removed := r.(phones := Seqs.RemoveFirst(r.phones, oldNumber));
    assert oldNumber in r.phones ==> removed == RemovePhone(r, oldNumber);
  }
}

=== FILE: seqs.dfy ===
/** Python list operations the contact book relies on: `list.index`-style
    first-match search, `list.remove`, comprehension filters, and the
    duplicate-free property of a tag list. */
module Seqs {
  import opened Wrappers

  /** `i` is the position of the first element of `xs` equal to `x`. */
  predicate FirstIndex<T(==)>(xs: seq<T>, x: T, i: nat) {
    i < |xs| && xs[i] == x && forall j :: 0 <= j < i ==> xs[j] != x
  }

  /** The position of the first element equal to `x`, or None. */
  function IndexOf<T(==)>(xs: seq<T>, x: T): (r: Option<nat>)
    ensures r.Some? ==> FirstIndex(xs, x, r.value)
    ensures r.None? <==> x !in xs
  {
    if xs == [] then None
    else if xs[0] == x then Some(0)
    else match IndexOf(xs[1..], x)
      case None => None
      case Some(i) => Some(i + 1)
  }

  /** The position of the last element equal to `x`, or None. */
  function LastIndexOf<T(==)>(xs: seq<T>, x: T): (r: Option<nat>)
    ensures r.Some? ==> r.value < |xs| && xs[r.value] == x
    ensures r.Some? ==> forall j :: r.value < j < |xs| ==> xs[j] != x
    ensures r.None? <==> x !in xs
  {
    if xs == [] then None
    else if xs[|xs| - 1] == x then Some(|xs| - 1)
    else
      assert xs == xs[..|xs| - 1] + [xs[|xs| - 1]];
      LastIndexOf(xs[..|xs| - 1], x)
  }

  /** Python's `xs.remove(x)` guarded by `x in xs`: drops the first element
      equal to `x`; leaves `xs` alone when there is none. */
  function RemoveFirst<T(==)>(xs: seq<T>, x: T): (r: seq<T>)
    ensures x !in xs ==> r == xs
    ensures x in xs ==> |r| == |xs| - 1
    ensures multiset(r) == multiset(xs) - multiset{x}
    ensures forall i: nat :: FirstIndex(xs, x, i) ==> r == xs[..i] + xs[i + 1..]
  {
    match IndexOf(xs, x)
    case None => xs
    case Some(i) =>
      assert xs == xs[..i] + [x] + xs[i + 1..];
      assert forall k: nat :: FirstIndex(xs, x, k) ==> k == i;
      xs[..i] + xs[i + 1..]
  }

  /** No element occurs twice. */
  predicate NoDup<T(==)>(xs: seq<T>) {
    forall i, j :: 0 <= i < j < |xs| ==> xs[i] != xs[j]
  }

  /** Removing an element keeps a list duplicate-free, and from a
      duplicate-free list it removes every occurrence. */
  lemma RemoveFirstNoDup<T>(xs: seq<T>, x: T)
    ensures NoDup(xs) ==> NoDup(RemoveFirst(xs, x)) && x !in RemoveFirst(xs, x)
  {
    var r := RemoveFirst(xs, x);
    if NoDup(xs) && x in xs {
      var i := IndexOf(xs, x).value;
      assert r == xs[..i] + xs[i + 1..];
      forall a, b | 0 <= a < b < |r| ensures r[a] != r[b] {
        var a' := if a < i then a else a + 1;
        var b' := if b < i then b else b + 1;
        assert r[a] == xs[a'] && r[b] == xs[b'];
      }
    }
  }

  /** Appending an absent element keeps a list duplicate-free. */
  lemma AppendNoDup<T>(xs: seq<T>, x: T)
    requires x !in xs
    ensures NoDup(xs) ==> NoDup(xs + [x])
  {
  }

  /** `a` can be obtained from `b` by deleting elements: `a` lists some of
      the elements of `b`, in the order `b` has them. */
  predicate IsSubsequence<T(==)>(a: seq<T>, b: seq<T>)
    decreases |b|
  {
    if b == [] then a == []
    else (a != [] && a[0] == b[0] && IsSubsequence(a[1..], b[1..]))
         || IsSubsequence(a, b[1..])
  }

  /** The list comprehension `[x for x in xs if p(x)]`: exactly the elements
      satisfying `p`, each as often as in `xs`, in their original order. */
  function Filter<T(!new)>(xs: seq<T>, p: T -> bool): (r: seq<T>)
    ensures forall i :: 0 <= i < |r| ==> r[i] in xs && p(r[i])
    ensures forall i :: 0 <= i < |xs| && p(xs[i]) ==> xs[i] in r
    ensures forall x :: multiset(r)[x] == if p(x) then multiset(xs)[x] else 0
    ensures IsSubsequence(r, xs)
    ensures |r| <= |xs|
  {
    if xs == [] then []
    else if p(xs[0]) then
      var r := [xs[0]] + Filter(xs[1..], p);
      assert r[1..] == Filter(xs[1..], p);
      assert xs == [xs[0]] + xs[1..];
      FilterCount(xs, p, Filter(xs[1..], p));
      r
    else
      assert xs == [xs[0]] + xs[1..];
      FilterCount(xs, p, Filter(xs[1..], p));
      Filter(xs[1..], p)
  }

  /** One step of `Filter`'s multiplicity count: if `tail` keeps the
      passing elements of `xs[1..]` with their multiplicities, then adding
      `xs[0]` in front when it passes keeps those of `xs`. */
  lemma FilterCount<T(!new)>(xs: seq<T>, p: T -> bool, tail: seq<T>)
    requires xs != []
    requires forall x :: multiset(tail)[x] == if p(x) then multiset(xs[1..])[x] else 0
    ensures forall x :: multiset(if p(xs[0]) then [xs[0]] + tail else tail)[x] ==
              if p(x) then multiset(xs)[x] else 0
  {
    assert xs == [xs[0]] + xs[1..];
    assert multiset(xs) == multiset{xs[0]} + multiset(xs[1..]);
  }
}

=== FILE: simple_book.dfy ===
/** HW1807.py, the earlier generation of the contact book: a contact has a
    name and at most one phone and one e-mail, each kept only when it
    matches its regular expression, and the book is a dictionary from name
    to contact that refuses a second contact with the same name. */
module SimpleBook {
  import opened Wrappers
  import opened Text
  import OrderedMap
  import Seqs

  const Prefix := "+380"

  const AlreadyExists := "Контакт вже існує."
  const Added := "Контакт додано."
  const Deleted := "Контакт видалено."
  const NotFound := "Контакт не знайдено."
  const Updated := "Контакт оновлено."

  // ---------------------------------------------------------- validators

  /** `validate_phone`: `re.match(r'^\+380\d{9}$', phone)`. */
  function ValidatePhone(s: string): (ok: bool)
    ensures ok <==> exists d :: |d| == 9 && AllDigits(d) && s == Prefix + d
  {
    if |s| == 13 && s[..4] == Prefix && AllDigits(s[4..]) then
      assert s == Prefix + s[4..];
      true
    else
      false
  }

  /** A character of the class `[\w\.-]`. */
  predicate IsEmailChar(c: char) {
    IsWordChar(c) || c == '.' || c == '-'
  }

  /** `s` matches `^[\w\.-]+@[\w\.-]+\.\w+$` with its `@` at position `at`
      and the dot before the last run of word characters at `dot`. */
  predicate EmailMatch(s: string, at: nat, dot: nat) {
    && 0 < at && at + 1 < dot && dot + 1 < |s|
    && s[at] == '@' && s[dot] == '.'
    && (forall i :: 0 <= i < at ==> IsEmailChar(s[i]))
    && (forall i :: at < i < dot ==> IsEmailChar(s[i]))
    && (forall i :: dot < i < |s| ==> IsWordChar(s[i]))
  }

  /** `validate_email`: `re.match(r'^[\w\.-]+@[\w\.-]+\.\w+$', email)`.
      No character of `[\w\.-]` is an `@`, so the `@` can only be the first
      one; no word character is a dot, so the dot can only be the last one.
      Checking that one split decides the match. */
  function ValidateEmail(s: string): (ok: bool)
    ensures ok <==> exists at: nat, dot: nat :: EmailMatch(s, at, dot)
  {
    EmailSplitIsUnique(s);
    match Seqs.IndexOf(s, '@')
    case None => false
    case Some(at) =>
      match Seqs.LastIndexOf(s, '.')
      case None => false
      case Some(dot) => EmailMatch(s, at, dot)
  }

  /** Any split that matches is the one at the first `@` and the last dot. */
  lemma EmailSplitIsUnique(s: string)
    ensures forall at: nat, dot: nat :: EmailMatch(s, at, dot) ==>
              Seqs.IndexOf(s, '@') == Some(at) && Seqs.LastIndexOf(s, '.') == Some(dot)
  {
    forall at: nat, dot: nat | EmailMatch(s, at, dot)
      ensures Seqs.IndexOf(s, '@') == Some(at) && Seqs.LastIndexOf(s, '.') == Some(dot)
    {
      assert !IsEmailChar('@') && !IsWordChar('.');
      assert Seqs.FirstIndex(s, '@', at);
      assert '.' in s;
    }
  }

  /** An address `validate_email` accepts has exactly one `@`. */
  lemma EmailHasOneAt(s: string)
    requires ValidateEmail(s)
    ensures exists at :: 0 <= at < |s| && s[at] == '@'
    ensures forall i, j :: 0 <= i < |s| && 0 <= j < |s| && s[i] == '@' && s[j] == '@' ==> i == j
  {
    var at: nat, dot: nat :| EmailMatch(s, at, dot);
    assert !IsEmailChar('@') && !IsWordChar('@');
    assert forall i :: 0 <= i < |s| && s[i] == '@' ==> i == at;
  }

  // ------------------------------------------------------------ contacts

  datatype Contact = Contact(name: string, phone: Option<string>, email: Option<string>)

  /** Every value a contact holds passed its validator. */
  predicate ContactValid(c: Contact) {
    && (c.phone.Some? ==> ValidatePhone(c.phone.value))
    && (c.email.Some? ==> ValidateEmail(c.email.value))
  }

  /** `Contact(name, phone, email)`: a value that fails its validator is
      dropped, not refused. */
  function NewContact(name: string, phone: string, email: string): (c: Contact)
    ensures c.name == name && ContactValid(c)
    ensures c.phone.Some? <==> ValidatePhone(phone)
    ensures c.phone.Some? ==> c.phone.value == phone
    ensures c.email.Some? <==> ValidateEmail(email)
    ensures c.email.Some? ==> c.email.value == email
  {
    Contact(name,
            if ValidatePhone(phone) then Some(phone) else None,
            if ValidateEmail(email) then Some(email) else None)
  }

  // ---------------------------------------------------------------- book

  type Book = OrderedMap.Dict<Contact>

  /** Each contact is stored under its own name and holds valid values. */
  ghost predicate BookValid(b: Book) {
    && OrderedMap.Valid(b)
    && forall k :: k in b.items ==> b.items[k].name == k && ContactValid(b.items[k])
  }

  /** `find`: the contact stored under `name`, or None; in a valid book it
      is a contact of that name holding valid values. */
  function Find(b: Book, name: string): (r: Option<Contact>)
    ensures r.Some? <==> name in b.items
    ensures r.Some? ==> r.value == b.items[name]
    ensures BookValid(b) && r.Some? ==> r.value.name == name && ContactValid(r.value)
  {
    OrderedMap.Get(b, name)
  }

  /** `add_contact`: refuses a name already in the book and leaves the book
      unchanged; otherwise stores the contact at the end. */
  function AddContact(b: Book, c: Contact): (res: (Book, string))
    requires OrderedMap.Valid(b)
    ensures OrderedMap.Valid(res.0)
    ensures c.name in b.items ==> res == (b, AlreadyExists)
    ensures c.name !in b.items ==>
              && res.1 == Added
              && Find(res.0, c.name) == Some(c)
              && res.0.order == b.order + [c.name]
              && forall n :: n != c.name ==> Find(res.0, n) == Find(b, n)
    ensures BookValid(b) && ContactValid(c) ==> BookValid(res.0)
  {
    if c.name in b.items then (b, AlreadyExists)
    else (OrderedMap.Put(b, c.name, c), Added)
  }

  /** `delete`: removes exactly the named contact, or reports that there
      is none and changes nothing. */
  function Delete(b: Book, name: string): (res: (Book, string))
    requires OrderedMap.Valid(b)
    ensures OrderedMap.Valid(res.0)
    ensures name !in b.items ==> res == (b, NotFound)
    ensures name in b.items ==>
              && res.1 == Deleted
              && Find(res.0, name) == None
              && forall n :: n != name ==> Find(res.0, n) == Find(b, n)
    ensures res.0.order == Seqs.RemoveFirst(b.order, name)
    ensures BookValid(b) ==> BookValid(res.0)
  {
    if name in b.items then (OrderedMap.Remove(b, name), Deleted)
    else (b, NotFound)
  }

  /** Python's truth value of an optional string: None and "" are false. */
  predicate Given(o: Option<string>) {
    o.Some? && o.value != ""
  }

  /** `edit`: a given phone or e-mail replaces the stored one only when it
      validates; otherwise the stored value stays. The name and the
      contact's place in the book never change. */
  function Edit(b: Book, name: string, phone: Option<string>, email: Option<string>): (res: (Book, string))
    requires OrderedMap.Valid(b)
    ensures OrderedMap.Valid(res.0)
    ensures name !in b.items ==> res == (b, NotFound)
    ensures name in b.items ==>
              var before := b.items[name];
              && res.1 == Updated
              && res.0.order == b.order
              && Find(res.0, name).Some?
              && Find(res.0, name).value.name == before.name
              && (if Given(phone) && ValidatePhone(phone.value)
                  then Find(res.0, name).value.phone == Some(phone.value)
                  else Find(res.0, name).value.phone == before.phone)
              && (if Given(email) && ValidateEmail(email.value)
                  then Find(res.0, name).value.email == Some(email.value)
                  else Find(res.0, name).value.email == before.email)
              && forall n :: n != name ==> Find(res.0, n) == Find(b, n)
    ensures BookValid(b) ==> BookValid(res.0)
  {
    if name in b.items then
      var c := b.items[name];
      var c1 := if Given(phone) && ValidatePhone(phone.value) then c.(phone := phone) else c;
      var c2 := if Given(email) && ValidateEmail(email.value) then c1.(email := email) else c1;
      (OrderedMap.Put(b, name, c2), Updated)
    else (b, NotFound)
  }
}

=== FILE: text.dfy ===
/** Character classes, whitespace stripping, case folding, substring search
    and decimal rendering, all restricted to ASCII. Python's `str.isdigit`,
    `str.strip`, `str.lower`, `\d` and `\w` are Unicode-aware; this model
    only knows the ASCII members of each class. */
module Text {

  // ---------------------------------------------------------------- classes

  predicate IsDigit(c: char) {
    '0' <= c <= '9'
  }

  predicate AllDigits(s: string) {
    forall i :: 0 <= i < |s| ==> IsDigit(s[i])
  }

  /** `\w` in a Python regular expression: letter, digit or underscore. */
  predicate IsWordChar(c: char) {
    ('a' <= c <= 'z') || ('A' <= c <= 'Z') || IsDigit(c) || c == '_'
  }

  /** The ASCII characters Python's `str.strip()` removes: tab, line feed,
      vertical tab, form feed, carriage return, the four information
      separators 0x1C-0x1F, and space. */
  predicate IsSpace(c: char) {
    (9 <= c as int <= 13) || (28 <= c as int <= 32)
  }

  predicate AllSpace(s: string) {
    forall i :: 0 <= i < |s| ==> IsSpace(s[i])
  }

  function DigitValue(c: char): nat
    requires IsDigit(c)
  {
    c as int - '0' as int
  }

  function DigitChar(n: nat): (c: char)
    requires n < 10
    ensures IsDigit(c) && DigitValue(c) == n
  {
    ('0' as int + n) as char
  }

  // ------------------------------------------------------------- stripping

  /** The end of the run of whitespace in `s` that starts at `i`. */
  function SpaceRunEnd(s: string, i: nat): (n: nat)
    requires i <= |s|
    ensures i <= n <= |s|
    ensures forall j :: i <= j < n ==> IsSpace(s[j])
    ensures n < |s| ==> !IsSpace(s[n])
    decreases |s| - i
  {
    if i < |s| && IsSpace(s[i]) then SpaceRunEnd(s, i + 1) else i
  }

  /** The start of the run of whitespace in `s` that ends at `hi`, not
      going below `lo`. */
  function SpaceRunStart(s: string, lo: nat, hi: nat): (n: nat)
    requires lo <= hi <= |s|
    ensures lo <= n <= hi
    ensures forall j :: n <= j < hi ==> IsSpace(s[j])
    ensures lo < n ==> !IsSpace(s[n - 1])
    decreases hi
  {
    if lo < hi && IsSpace(s[hi - 1]) then SpaceRunStart(s, lo, hi - 1) else hi
  }

  /** `r` is what remains of `s` after cutting `a` whitespace characters
      from its front and only whitespace from its back. */
  predicate StrippedAt(s: string, r: string, a: nat) {
    && a + |r| <= |s|
    && r == s[a..a + |r|]
    && (forall i :: 0 <= i < a ==> IsSpace(s[i]))
    && (forall i :: a + |r| <= i < |s| ==> IsSpace(s[i]))
  }

  /** Python's `s.strip()`: the slice of `s` left after cutting whitespace
      from both ends. It is empty exactly when `s` is all whitespace. */
  function Strip(s: string): (r: string)
    ensures exists a: nat :: StrippedAt(s, r, a)
    ensures r == [] <==> AllSpace(s)
    ensures r != [] ==> !IsSpace(r[0]) && !IsSpace(r[|r| - 1])
  {
    var a := SpaceRunEnd(s, 0);
    var b := SpaceRunStart(s, a, |s|);
    assert StrippedAt(s, s[a..b], a);
    assert a == b ==> a == |s|;
    s[a..b]
  }

  // --------------------------------------------------------- case folding

  function LowerChar(c: char): char {
    if 'A' <= c <= 'Z' then (c as int + 32) as char else c
  }

  /** Python's `s.lower()` on ASCII letters. */
  function Lower(s: string): string {
    seq(|s|, i requires 0 <= i < |s| => LowerChar(s[i]))
  }

  /** `needle` occurs in `hay` starting at position `i`. */
  predicate OccursAt(hay: string, needle: string, i: nat) {
    i + |needle| <= |hay| && hay[i..i + |needle|] == needle
  }

  /** Python's `needle in hay` for strings. */
  predicate Contains(hay: string, needle: string) {
    exists i: nat | i <= |hay| :: OccursAt(hay, needle, i)
  }

  /** Python's `needle.lower() in hay.lower()`. */
  predicate ContainsIgnoringCase(hay: string, needle: string) {
    Contains(Lower(hay), Lower(needle))
  }

  lemma EmptyIsContained(hay: string)
    ensures Contains(hay, "")
  {
    assert OccursAt(hay, "", 0);
  }

  /** The middle part of a concatenation occurs in it right after the first
      part. */
  lemma OccursInConcat(a: string, b: string, c: string)
    ensures OccursAt(a + b + c, b, |a|) && Contains(a + b + c, b)
  {
    var i: nat := |a|;
    assert (a + b + c)[i..i + |b|] == b;
    assert i <= |a + b + c| && OccursAt(a + b + c, b, i);
  }

  /** A message assembled as `a + s + b + t` starts with `a` and contains
      `b`. */
  lemma Framed(a: string, s: string, b: string, t: string)
    ensures OccursAt(a + s + b + t, a, 0)
    ensures Contains(a + s + b + t, b)
  {
    var m := a + s + b + t;
    assert m == "" + a + (s + b + t);
    OccursInConcat("", a, s + b + t);
    assert m == (a + s) + b + t;
    OccursInConcat(a + s, b, t);
  }

  /** A message assembled as `a + s + b + t + c + u` starts with `a` and
      contains `b` and `c`. */
  lemma Assembled(a: string, s: string, b: string, t: string, c: string, u: string)
    ensures OccursAt(a + s + b + t + c + u, a, 0)
    ensures Contains(a + s + b + t + c + u, b)
    ensures Contains(a + s + b + t + c + u, c)
  {
    var m := a + s + b + t + c + u;
    assert m == "" + a + (s + b + t + c + u);
    OccursInConcat("", a, s + b + t + c + u);
    assert m == (a + s) + b + (t + c + u);
    OccursInConcat(a + s, b, t + c + u);
    assert m == (a + s + b + t) + c + u;
    OccursInConcat(a + s + b + t, c, u);
  }

  // ------------------------------------------------------- decimal numbers

  function Pow10(w: nat): nat {
    if w == 0 then 1 else 10 * Pow10(w - 1)
  }

  /** The number a string of decimal digits denotes. */
  function Value(s: string): nat
    requires AllDigits(s)
  {
    if s == [] then 0 else Value(s[..|s| - 1]) * 10 + DigitValue(s[|s| - 1])
  }

  /** `n` written with exactly `w` digits, zero-padded on the left
      (`strftime`'s `%d`, `%m`, `%Y`, `%H`, `%M`, `%S`). */
  function Padded(n: nat, w: nat): (r: string)
    requires n < Pow10(w)
    ensures |r| == w && AllDigits(r) && Value(r) == n
  {
    if w == 0 then "" else
      var r := Padded(n / 10, w - 1) + [DigitChar(n % 10)];
      assert r[..|r| - 1] == Padded(n / 10, w - 1);
      r
  }

  /** `str(n)` for a natural number. */
  function NatToString(n: nat): (r: string)
    ensures |r| > 0 && AllDigits(r) && Value(r) == n
    ensures r[0] == '0' ==> n == 0
  {
    if n < 10 then [DigitChar(n)] else
      var r := NatToString(n / 10) + [DigitChar(n % 10)];
      assert r[..|r| - 1] == NatToString(n / 10);
      r
  }

  /** `str(i)` for any integer. */
  function IntToString(i: int): string {
    if i < 0 then "-" + NatToString(-i) else NatToString(i)
  }

  /** A digit string is below the power of ten of its length. */
  lemma {:induction false} ValueBound(s: string)
    requires AllDigits(s)
    ensures Value(s) < Pow10(|s|)
  {
    if s != [] {
      ValueBound(s[..|s| - 1]);
    }
  }

  /** Padding the value of a digit string to its own length gives the
      string back: zero-padded rendering and digit parsing are inverse. */
  lemma {:induction false} PaddedValue(s: string)
    requires AllDigits(s)
    ensures Value(s) < Pow10(|s|) && Padded(Value(s), |s|) == s
  {
    ValueBound(s);
    if s != [] {
      var init := s[..|s| - 1];
      PaddedValue(init);
      var v := Value(s);
      assert v / 10 == Value(init);
      assert v % 10 == DigitValue(s[|s| - 1]);
      assert s == init + [s[|s| - 1]];
    }
  }
}

=== FILE: wrappers.dfy ===
/** Option and Result, the failure-compatible wrappers used throughout the model. */
module Wrappers {

  /** A value that may be absent; Python's `None` or an object. */
  datatype Option<+T> = None | Some(value: T) {

    predicate IsFailure() {
      None?
    }

    function PropagateFailure<U>(): Option<U>
      requires None?
    {
      None
    }

    function Extract(): T
      requires Some?
    {
      value
    }
  }

  /** Either a value or the error that a Python operation would raise. */
  datatype Result<+R, +E> = Success(value: R) | Failure(error: E) {

    predicate IsFailure() {
      Failure?
    }

    function PropagateFailure<U>(): Result<U, E>
      requires Failure?
    {
      Failure(error)
    }

    function Extract(): R
      requires Success?
    {
      value
    }
  }
}
